=== FILE: README.md ===
# Event Finder — a Dafny model of its business rules

Event Finder is a Django REST backend. Organizers publish events. Users buy
tickets for them and leave reviews. This project models the parts of it that
make decisions rather than move data:

- **`Ticket.save`** (`TicketSave.SaveTicket`). An update of an existing
  ticket is refused unless the ticket's *owner* is the event's organizer.
  "Update" means the key is truthy (`if self.pk:`), so a key of 0 skips the
  owner lookup and this check. The
  save then sums `num_tickets` over the event's Attendance rows, reading SQL
  NULL as 0. It refuses when the requested seats exceed `capacity − reserved`,
  computed as an unbounded integer. Only then is the row written.
- **The schema** (`Store`). The tables are users, events, attendance rows,
  tickets and reviews. The invariant `Store.Valid` covers primary keys, the
  `unique_together` pairs and the foreign keys. Inserts fail with an integrity
  error. Deleting an event or a user cascades.
- **`ReviewListCreate.post`** (`ReviewViews`). A review is refused when the
  event is unknown (404). It is refused when the event lies in the future
  (400). It is refused when the user holds no ticket for the event (400). In
  every other case the serializer goes on to create the review. It refuses a
  rating outside 1 to 5, an unknown event or user, and a comment that is blank
  once trimmed.
- **`EventListView.get_queryset`** (`EventViews`). Four optional parameters
  each narrow the list: case-insensitive location and category matches, a
  one-day date window, and a title-or-description search.
- **The user model** (`Users`). It covers the field bounds, the
  `telegram_url` validator `^@[\w\d_]*$` with its 32-character limit, the
  uniqueness constraints, and `__str__`.

Everything is a pure function over immutable values. Each write returns the
new store together with a result or an error. Dates are integer day numbers.
The price is an opaque value. Date parsing (`strptime`) is passed in as a
function `parseDate`.

The model follows the code as written:

- The organizer check compares the ticket's owner with the organizer. It does
  not compare the acting user. It applies to every update, not only to price
  changes.
- The organizer check runs before the capacity check.
- Reserved seats are summed over Attendance rows, not over tickets.
- `bookings` is never updated.
- The update checks in `Ticket.save` test the key's truthiness, so a key of 0
  is treated like a missing one.

In the review view, `event.datetime` and `Ticket.objects.filter(user=…)`
name fields that do not exist. `ReviewViews.ReviewGate` encodes the evident
intent: the event's `date` and the ticket's `owner`. The code as written is
recorded under Findings.

Modules: `Results` (Option/Result), `Seqs` (row filtering and uniqueness),
`Text` (case-insensitive substring and whitespace trimming), `Users`, `Events`, `Tickets`, `Reviews`
(records), `Store` (the database), `TicketSave`, `ReviewViews`, `EventViews`.

## Model

| member | source | states |
|---|---|---|
| `TicketSave.SaveTicket` | FinBase1/tickets/models.py:50-63 | a refused save leaves the store as it was; a successful one changes only the ticket table, where the saved row replaces any row with its key, and its owner exists; a row with a key is written as given, a new one gets a fresh key and both creation stamps; a ticket whose key is not truthy (none, or 0) is never refused by the owner lookup or the organizer check |
| `Tickets.NewTicket` | FinBase1/tickets/models.py:43-45 | a ticket built from event, owner and price is unsaved, reserves one seat and is active |
| `TicketSave.Stamped` | FinBase1/tickets/models.py:42-44 | the row written always has a key; a new ticket gets a key no stored ticket has and both creation stamps set to now, every other field kept; a ticket with a key is written unchanged |
| `TicketSave.Persist` | FinBase1/tickets/models.py:63 | the write, update or insert, succeeds exactly when the owner's foreign key names a stored user; otherwise it is an integrity error and nothing changes |
| `TicketSave.UpdateByNonOrganizerFails` | FinBase1/tickets/models.py:55-57 | updating a ticket with a truthy key whose owner is not the event's organizer fails with NotOrganizer and changes nothing, whatever the seat counts |
| `TicketSave.NewTicketOwnerIrrelevant` | FinBase1/tickets/models.py:55 | for a ticket whose key is not truthy, which existing user owns it makes no difference to acceptance |
| `TicketSave.SaveSucceedsIff` | FinBase1/tickets/models.py:55-62 | for an existing event and owner: success iff (key not truthy or owner is organizer) and seats ≤ capacity − reserved; NotEnoughTickets iff the organizer check passes and seats > capacity − reserved |
| `TicketSave.SaveWithoutEventFails` | FinBase1/tickets/models.py:58 | a ticket naming no existing event is refused and the store is unchanged |
| `TicketSave.DefaultTicketAccepted` | FinBase1/tickets/models.py:43-45 | a default ticket (one seat, active) on a default 100-seat event without attendance rows is accepted |
| `TicketSave.UpsertKeepsTicketsValid` | FinBase1/tickets/models.py:39-40 | writing a row whose key is set and whose event and owner exist, replacing any row with that key, keeps ticket keys unique and every ticket's event and owner present |
| `TicketSave.SavePreservesValid` | FinBase1/tickets/models.py:39-63 | a successful save keeps the whole store's invariant: ticket keys unique and the ticket's event and owner present, other tables untouched |
| `TicketSave.SavesNeverShrinkAvailability` | FinBase1/tickets/models.py:58-63 | any sequence of new tickets that each fit the attendance-based availability is accepted in full: the tickets table grows by exactly their number |
| `TicketSave.OversubscriptionAsWritten` | FinBase1/tickets/models.py:58-62 | capacity 10, requests for 7 then 4 seats: both accepted, 11 seats sold |
| `TicketSave.SaveTicketCounted` | FinBase1/tickets/models.py:55-63 | corrected save: a refused save leaves the store unchanged; a successful one writes the stamped row, changes only the ticket table, where that row replaces any row with its key, and its owner exists; a ticket whose key is not truthy never meets the owner lookup or the organizer check |
| `TicketSave.SaveCountedSucceedsIff` | FinBase1/tickets/models.py:55-62 | for an existing event and owner the corrected save succeeds iff (key not truthy or owner is organizer) and seats ≤ capacity − reserved − seats of the event's other stored tickets; NotEnoughTickets iff the organizer check passes and the seats exceed that |
| `TicketSave.SaveCountedPreservesCapacity` | FinBase1/tickets/models.py:61-62 | with sold tickets counted (excluding the row being updated), a successful save keeps every event's attendance seats plus ticket seats within its capacity |
| `TicketSave.CountedSaveRefusesOversubscription` | FinBase1/tickets/models.py:61-62 | on the same scenario the corrected save accepts 7 seats, then refuses 4 with NotEnoughTickets, and accepts 3, which fills the 10 seats exactly |
| `Tickets.ParseStatus` | FinBase1/tickets/models.py:33-37 | a stored status code parses iff it is one of "active", "finished", "cancelled" |
| `Tickets.StatusLabelInjective` | FinBase1/tickets/models.py:33-37 | the three choices have distinct display labels |
| `Tickets.StatusCodeRoundTrip` | FinBase1/tickets/models.py:45 | each status's code parses back to it and only its own code does; every code fits the 20-character column |
| `Tickets.TicketLabel` | FinBase1/tickets/models.py:47-48 | the string form is "Ticket for " followed by exactly the event title |
| `Tickets.TicketLabelInjective` | FinBase1/tickets/models.py:48 | equal string forms mean equal titles |
| `Events.SumNumTickets` | FinBase1/tickets/models.py:58 | the SQL sum is NULL exactly when the event has no attendance rows |
| `Events.ReservedSeatsNone` | FinBase1/tickets/models.py:59-60 | an event without attendance rows has 0 reserved seats |
| `Events.ReservedSeatsAppend` | FinBase1/tickets/models.py:58-60 | reserved seats are additive: a new row adds its seats to its own event's count and to no other |
| `Events.ReservedSeatsCoversRow` | FinBase1/tickets/models.py:58 | each attendance row's seats are included in its event's reserved count |
| `Events.ReservedSeatsIgnoresOtherEvents` | FinBase1/events/models.py:46 | removing only other events' rows leaves an event's reserved count unchanged |
| `Events.NewEvent` | FinBase1/events/models.py:27-28 | an event created without capacity or bookings gets 100 seats and 0 bookings, every other field as given |
| `Events.NewEventSeatsOpen` | FinBase1/events/models.py:27 | a default event without attendance rows has all 100 seats open to the capacity check |
| `Events.NewAttendance` | FinBase1/events/models.py:48 | an attendance row created without a seat count reserves one seat |
| `Events.NewAttendanceReservesOne` | FinBase1/events/models.py:46-48 | appending a default attendance row raises its event's reserved seats by exactly one and leaves every other event's unchanged |
| `Events.EventStr` | FinBase1/events/models.py:33-34 | the string form is the organizer's string form, a space, then the title |
| `Events.EventStrDeterminesTitle` | FinBase1/events/models.py:33-34 | for one organizer, equal string forms mean equal titles |
| `Store.EventStrUniquePerOrganizer` | FinBase1/events/models.py:30-34 | with `(organizer, title)` unique together, two stored events of one organizer with the same string form are the same event |
| `Store.FindEvent` | FinBase1/tickets/models.py:56 | a found event is a stored row with the requested key; nothing is found iff no row has that key |
| `Store.FindUser` | FinBase1/tickets/models.py:56 | a found user is a stored row with the requested key; nothing is found iff no row has that key |
| `Store.InsertUser` | FinBase1/users/models.py:27-41 | inserting a user succeeds iff its key, its username and its (first_name, last_name) pair are all free, and then appends exactly that row |
| `Store.InsertUserPreservesValid` | FinBase1/users/models.py:41 | an accepted user insert keeps usernames and name pairs unique |
| `Store.InsertEvent` | FinBase1/events/models.py:21-31 | inserting an event succeeds iff its key and (organizer, title) pair are free and the organizer exists |
| `Store.InsertEventPreservesValid` | FinBase1/events/models.py:31 | an accepted event insert keeps (organizer, title) unique |
| `Store.InsertAttendance` | FinBase1/events/models.py:46-51 | inserting an attendance row succeeds iff its key and (event, user) pair are free and both exist |
| `Store.InsertAttendancePreservesValid` | FinBase1/events/models.py:51 | an accepted attendance insert keeps (event, user) unique |
| `Store.DeleteEvent` | FinBase1/events/models.py:46 | deleting an event removes exactly that event and the attendance rows, tickets and reviews that refer to it |
| `Store.DeleteEventKeepsOtherReservations` | FinBase1/events/models.py:46 | deleting an event leaves every other event's reserved seats unchanged |
| `Store.DeleteEventPreservesValid` | FinBase1/events/models.py:46-47 | the cascade leaves no dangling reference and keeps every uniqueness constraint |
| `Store.DeleteUser` | FinBase1/events/models.py:21 | deleting a user removes exactly that user, the events they organize, and the rows that refer to the user or to those events |
| `Store.DeleteUserPreservesValid` | FinBase1/events/models.py:21-47 | the user cascade leaves no dangling reference and keeps every uniqueness constraint |
| `ReviewViews.ReviewGate` | FinBase1/reviews/views.py:27-38 | the gate proceeds only for an existing event dated on or before today, for which the user holds a ticket; a missing event id is NotFound |
| `ReviewViews.UnknownEventNotFound` | FinBase1/reviews/views.py:30 | an id naming no event is NotFound |
| `ReviewViews.FutureEventRefused` | FinBase1/reviews/views.py:32-33 | an event after today is refused as not yet occurred, whether or not the user holds a ticket |
| `ReviewViews.NoTicketRefused` | FinBase1/reviews/views.py:35-36 | a past event is refused to a user without a ticket for it |
| `ReviewViews.GateProceedsIff` | FinBase1/reviews/views.py:32-38 | for an existing event the gate proceeds iff the date has passed and the user holds a ticket |
| `ReviewViews.PostReview` | FinBase1/reviews/views.py:27-38 | a refused or invalid request leaves the store unchanged; refused iff the gate does not proceed; invalid iff the gate proceeds and the payload fails the serializer (rating, event, user, a comment not blank once trimmed and free of NUL characters); created iff both pass; a created review carries the payload's event, user and rating, the trimmed comment, today's date and a fresh id, and is the only row added |
| `ReviewViews.BlankCommentRefused` | FinBase1/reviews/models.py:22 | a comment of whitespace alone is refused as an invalid payload even past the gate, and nothing is stored |
| `ReviewViews.NulCommentRefused` | FinBase1/reviews/models.py:22 | a comment holding a NUL character anywhere is refused as an invalid payload even past the gate, and nothing is stored |
| `ReviewViews.ReviewGateAsWritten` | FinBase1/reviews/views.py:28-32 | as written, the view answers with a server error exactly when the event id names a stored event, and 404 otherwise |
| `ReviewViews.PostReviewPreservesValid` | FinBase1/reviews/views.py:38 | creating a review keeps review keys unique and its event and user present |
| `ReviewViews.AsWrittenRefusesEligibleRequests` | FinBase1/reviews/views.py:32 | as written, every request the intended gate would let through ends in a server error |
| `ReviewViews.IntendedGateCreates` | FinBase1/reviews/views.py:32-38 | on a one-event store, a ticket holder's valid request for a past event is created by the intended gate and ends in a server error in the code as written |
| `EventViews.FilterEvents` | FinBase1/events/views.py:16-40 | the result is no longer than the event list; the result is an error exactly when a non-empty date parameter does not parse |
| `EventViews.FilterIsConjunction` | FinBase1/events/views.py:27-38 | the result holds exactly the events that meet every given parameter: location and category contain theirs, the date is that day, title or description contains the search |
| `EventViews.EmptyQueryListsAll` | FinBase1/events/views.py:21-40 | with no parameters, or only empty ones, the result is all events |
| `EventViews.MoreParametersNarrow` | FinBase1/events/views.py:27-38 | adding parameters to a query only removes events from its result |
| `EventViews.LocationFilter` | FinBase1/events/views.py:27-28 | the location parameter alone keeps exactly the events whose location contains it, ignoring case |
| `EventViews.CategoryFilter` | FinBase1/events/views.py:29-30 | the category parameter alone keeps exactly the events whose category contains it, ignoring case |
| `EventViews.DateFilter` | FinBase1/events/views.py:31-34 | the window date ≥ d and date < d + 1 day keeps exactly the events dated d |
| `EventViews.SearchFilter` | FinBase1/events/views.py:37-38 | the search keeps exactly the events whose title or description contains it, ignoring case |
| `Text.Contains` | FinBase1/events/views.py:28 | substring search answers true iff the needle occurs as a contiguous block of the text |
| `Text.IContainsIgnoresCase` | FinBase1/events/views.py:28 | an `icontains` match does not depend on the case of either side |
| `Text.Trim` | FinBase1/reviews/models.py:22 | the serializer's whitespace trimming: the result is empty iff the text is all whitespace, otherwise it starts and ends with non-whitespace, and it is the text with only whitespace removed from either end |
| `Text.TrimIdempotent` | FinBase1/reviews/models.py:22 | trimming twice is trimming once |
| `Users.WordRunEnd` | FinBase1/users/models.py:36 | the greedy `[\w\d_]*` run stops at the first non-word character or at the end, and covers only word characters |
| `Users.TelegramRegexAsWritten` | FinBase1/users/models.py:34-38 | the regex search accepts a string iff it is '@' followed by word characters, optionally followed by one final newline |
| `Users.TelegramFullMatch` | FinBase1/users/models.py:36 | the intended match accepts a string iff it is '@' followed only by word characters |
| `Users.ValidTelegramUrlShape` | FinBase1/users/models.py:34-36 | a valid handle has at most 32 characters, starts with '@', and has only word characters after it; "@" alone is valid |
| `Users.TrailingNewlineAcceptedAsWritten` | FinBase1/users/models.py:36 | "@bob\n" passes the validator as written but not the intended one |
| `Users.ValidTelegramAcceptedAsWritten` | FinBase1/users/models.py:36 | every handle the intended validator accepts is also accepted as written |
| `Users.FieldErrors` | FinBase1/users/models.py:27-38 | a user has no field errors iff all its length bounds, the phone range and the telegram pattern hold; telegram_url is reported iff the handle is invalid under the intended full-match pattern |
| `Users.FieldErrorsTelegramGap` | FinBase1/users/models.py:35-36 | the intended pattern reports a telegram_url error that the regex search as written would not raise exactly for a well-formed handle of at most 32 characters followed by a final newline |
| `Users.UserStr` | FinBase1/users/models.py:47 | the string form is the first name, one space, then the last name |
| `Users.UserStrDeterminesNames` | FinBase1/users/models.py:41-47 | when first names contain no space, equal string forms mean equal name pairs |
| `Users.UserStrNotUnique` | FinBase1/users/models.py:41-47 | two different name pairs can have the same string form, so the name-pair constraint does not make `__str__` unique |

## Left out

- The race between reading the aggregate and inserting the row. The model is sequential, so a save is atomic by construction.
- Django REST Framework generic views, serializers and URL tables (`users/views.py`, `tickets/views.py`, `notifications/*`, `*/serializers.py`, `*/urls.py`). They are framework plumbing. This includes ticket deletion, which `tickets/views.py` exposes with no owner check.
- `notifications/utils.py`: it only prints a mock email.
- Password change in `users/views.py`: it depends on password hashing that is not part of this model.
- The migration file: it repeats the `status` field of `tickets/models.py`.
- Decimal `price`: it is an opaque `Price` value with no arithmetic and no digit limits.
- `strptime`: date parsing is the function parameter `parseDate`. A date is a day number.
- The review gate compares whole days. It does not model comparing a date with the current instant.
- Users.IsWordChar: Python's `\w` also matches non-ASCII letters and digits. The model covers ASCII only.
- Text.IContains: case folding covers ASCII letters only. Database-specific Unicode folding is not modelled.
- Users.FieldErrors: applies the intended full-match telegram pattern, not the regex search as written, so it also reports a handle followed by a final newline, which the validator as written accepts (`Users.FieldErrorsTelegramGap` states exactly where the two differ). It does not model the non-blank requirement of fields without `blank=True`, nor the inherited `AbstractUser` fields.
- Text.Trim: Python's `str.strip` also removes non-ASCII whitespace. The model covers ASCII only.
- Event field lengths (`title` 255, `location` 100, `category` 50) are serializer validation. They are not enforced by the store model.
- TicketSave.NextTicketPk: picks one above the largest stored key. A database sequence's numbering is not modelled.
- ReviewViews.NextReviewId: picks one above the largest stored review id, for the same reason.
- TicketSave.SaveTicket: the event is read from the current store, not from the copy cached on the ticket instance. A ticket with a key but no stored row is appended as given. The creation stamps of that fallback insert are not modelled.
- Tickets.Status: the column is a `CharField`, and its choices are checked only by validation. The model's type admits only the three choices.
- ReviewViews.PostReview: the serializer's own `event` and `user` fields are taken from the payload as given. The model does not check that they match `event_id` and the authenticated user, and neither does the Django code.
- The `raise 'Invalid date format'` in the event list raises a `TypeError`. The model reports it as the error `InvalidDateFormat`.
- The `is_read` field-name mismatch in `notifications/views.py`: notifications are not part of this model.

## Findings

| source | as written | input that shows it | evidently intended | confidence | as-written member | corrected member |
|---|---|---|---|---|---|---|
| FinBase1/users/models.py:36 | the validator uses a regex search, and `$` also matches just before a final newline, so a handle ending in "\n" passes | telegram_url = "@bob\n" | "@" followed by word characters, nothing else | not executed; high for the regex rule, reachable only where input is not whitespace-trimmed first | `Users.TrailingNewlineAcceptedAsWritten` | `Users.TelegramFullMatch` |
| FinBase1/reviews/views.py:32 | `event.datetime` is not a field of Event (the field is `date`), so the attribute read raises; line 35 filters tickets on `user`, which is not a Ticket field either | any POST whose `event_id` names an existing event | compare the event's `date` with today and look up tickets by `owner` | not executed; high | `ReviewViews.AsWrittenRefusesEligibleRequests` | `ReviewViews.ReviewGate` |
| FinBase1/tickets/models.py:58-61 | the seats already taken are summed over Attendance rows, which nothing in the repository writes, so sold tickets never reduce availability | capacity 10, no attendance rows: save 7 seats, then 4; both are accepted | sold tickets count against capacity, excluding the ticket being updated | not executed; medium (it cannot be told whether Attendance rows were meant to be written elsewhere) | `TicketSave.OversubscriptionAsWritten` | `TicketSave.SaveCountedPreservesCapacity` |

`TicketSave.SaveTicket` remains the model of the code as written.
`TicketSave.SaveTicketCounted` is the corrected save that the third finding
proves correct.

=== FILE: event_views.dfy ===
/** `EventListView.get_queryset`: the event list narrowed by the optional
    query parameters `location`, `category`, `date` and `search`. */
module EventViews {
  import opened Results
  import opened Seqs
  import opened Text
  import opened Events

  /** The query parameters; `None` when absent. */
  datatype Query = Query(location: Option<string>, category: Option<string>,
                         date: Option<string>, search: Option<string>)

  const NoQuery: Query := Query(None, None, None, None)

  datatype FilterError = InvalidDateFormat

  /** A parameter takes part when present and non-empty (Python truthiness). */
  predicate Given(p: Option<string>) {
    p.Some? && p.value != ""
  }

  /** `location__icontains`, when the parameter is given. */
  function ByLocation(qs: seq<Event>, q: Query): (r: seq<Event>)
    ensures forall e :: e in r <==>
              e in qs && (Given(q.location) ==> IContains(e.location, q.location.value))
  {
    if Given(q.location) then Keep(qs, (e: Event) => IContains(e.location, q.location.value)) else qs
  }

  /** `category__icontains`, when the parameter is given. */
  function ByCategory(qs: seq<Event>, q: Query): (r: seq<Event>)
    ensures forall e :: e in r <==>
              e in qs && (Given(q.category) ==> IContains(e.category, q.category.value))
  {
    if Given(q.category) then Keep(qs, (e: Event) => IContains(e.category, q.category.value)) else qs
  }

  /** `date__gte=day, date__lt=day + 1 day`, when the parameter is given. */
  function ByDate(qs: seq<Event>, q: Query, day: int): (r: seq<Event>)
    ensures forall e :: e in r <==> e in qs && (Given(q.date) ==> day <= e.date < day + 1)
  {
    if Given(q.date) then Keep(qs, (e: Event) => day <= e.date < day + 1) else qs
  }

  /** `Q(title__icontains) | Q(description__icontains)`, when the parameter
      is given. */
  function BySearch(qs: seq<Event>, q: Query): (r: seq<Event>)
    ensures forall e :: e in r <==>
              e in qs && (Given(q.search) ==>
                            IContains(e.title, q.search.value) || IContains(e.description, q.search.value))
  {
    if Given(q.search)
    then Keep(qs, (e: Event) => IContains(e.title, q.search.value) || IContains(e.description, q.search.value))
    else qs
  }

  /** The view's filters applied in its order. `parseDate` stands for
      `strptime(date, '%Y-%m-%d')` and yields a day number or fails. */
  function FilterEvents(events: seq<Event>, q: Query, parseDate: string -> Option<int>)
    : (r: Result<seq<Event>, FilterError>)
    ensures r.Success? ==> |r.value| <= |events|
    ensures r.Failure? <==> Given(q.date) && parseDate(q.date.value).None?
  {
    var qs := ByCategory(ByLocation(events, q), q);
    if Given(q.date) && parseDate(q.date.value).None? then Failure(InvalidDateFormat)
    else
      var day := if Given(q.date) then parseDate(q.date.value).value else 0;
      Success(BySearch(ByDate(qs, q, day), q))
  }

  /** The parsed `date` parameter, when there is one. */
  function DayOf(q: Query, parseDate: string -> Option<int>): int {
    if Given(q.date) && parseDate(q.date.value).Some? then parseDate(q.date.value).value else 0
  }

  /** The reference meaning of a query: an event is listed when it meets
      every given parameter, the date one meaning "on that very day". */
  predicate Matches(e: Event, q: Query, day: int) {
    && (Given(q.location) ==> IContains(e.location, q.location.value))
    && (Given(q.category) ==> IContains(e.category, q.category.value))
    && (Given(q.date) ==> e.date == day)
    && (Given(q.search) ==> IContains(e.title, q.search.value) || IContains(e.description, q.search.value))
  }

  /** The filters compose as a conjunction: the result holds exactly the
      events that meet every given parameter. */
  lemma FilterIsConjunction(events: seq<Event>, q: Query, parseDate: string -> Option<int>)
    requires !Given(q.date) || parseDate(q.date.value).Some?
    ensures FilterEvents(events, q, parseDate).Success?
    ensures forall e :: e in FilterEvents(events, q, parseDate).value <==>
              e in events && Matches(e, q, DayOf(q, parseDate))
  {
  }

  /** Without parameters, or with only empty ones, every event is listed. */
  lemma EmptyQueryListsAll(events: seq<Event>, q: Query, parseDate: string -> Option<int>)
    requires !Given(q.location) && !Given(q.category) && !Given(q.date) && !Given(q.search)
    ensures FilterEvents(events, q, parseDate) == Success(events)
  {
  }

  /** `q2` asks for at least what `q1` asks for. */
  predicate Refines(q2: Query, q1: Query) {
    && (Given(q1.location) ==> q2.location == q1.location)
    && (Given(q1.category) ==> q2.category == q1.category)
    && (Given(q1.date) ==> q2.date == q1.date)
    && (Given(q1.search) ==> q2.search == q1.search)
  }

  /** Supplying more parameters only narrows the list. */
  lemma MoreParametersNarrow(events: seq<Event>, q1: Query, q2: Query, parseDate: string -> Option<int>)
    requires Refines(q2, q1)
    requires FilterEvents(events, q2, parseDate).Success?
    ensures FilterEvents(events, q1, parseDate).Success?
    ensures forall e :: e in FilterEvents(events, q2, parseDate).value ==>
              e in FilterEvents(events, q1, parseDate).value
  {
    FilterIsConjunction(events, q1, parseDate);
    FilterIsConjunction(events, q2, parseDate);
  }

  /** The location filter alone keeps exactly the events whose location
      contains the parameter, ignoring case. */
  lemma LocationFilter(events: seq<Event>, loc: string, parseDate: string -> Option<int>)
    requires loc != ""
    ensures var r := FilterEvents(events, NoQuery.(location := Some(loc)), parseDate);
            r.Success? && forall e :: e in r.value <==> e in events && IContains(e.location, loc)
  {
    FilterIsConjunction(events, NoQuery.(location := Some(loc)), parseDate);
  }

  /** The category filter alone, likewise. */
  lemma CategoryFilter(events: seq<Event>, cat: string, parseDate: string -> Option<int>)
    requires cat != ""
    ensures var r := FilterEvents(events, NoQuery.(category := Some(cat)), parseDate);
            r.Success? && forall e :: e in r.value <==> e in events && IContains(e.category, cat)
  {
    FilterIsConjunction(events, NoQuery.(category := Some(cat)), parseDate);
  }

  /** The half-open window `[day, day + 1)` keeps exactly the events of that day. */
  lemma DateFilter(events: seq<Event>, date: string, parseDate: string -> Option<int>)
    requires date != "" && parseDate(date).Some?
    ensures var r := FilterEvents(events, NoQuery.(date := Some(date)), parseDate);
            r.Success? && forall e :: e in r.value <==> e in events && e.date == parseDate(date).value
  {
    FilterIsConjunction(events, NoQuery.(date := Some(date)), parseDate);
  }

  /** The search keeps the events whose title or description contains the
      query, ignoring case. */
  lemma SearchFilter(events: seq<Event>, s: string, parseDate: string -> Option<int>)
    requires s != ""
    ensures var r := FilterEvents(events, NoQuery.(search := Some(s)), parseDate);
            r.Success? && forall e :: e in r.value <==>
              e in events && (IContains(e.title, s) || IContains(e.description, s))
  {
    FilterIsConjunction(events, NoQuery.(search := Some(s)), parseDate);
  }
}

=== FILE: events.dfy ===
/** Events and the Attendance reservation rows that the ticket capacity check
    sums over. */
module Events {
  import opened Results
  import opened Seqs
  import Users

  const DefaultCapacity: nat := 100
  const DefaultBookings: nat := 0
  const DefaultAttendanceTickets: nat := 1

  /** `capacity` and `bookings` are `PositiveIntegerField`s, hence `nat`;
      `date` is a day number. */
  datatype Event = Event(
    id: nat,
    organizer: nat,
    title: string,
    description: string,
    date: int,
    location: string,
    category: string,
    capacity: nat,
    bookings: nat)

  /** Seats reserved by one user for one event. */
  datatype Attendance = Attendance(id: nat, event: nat, user: nat, numTickets: nat)

  /** An event created without capacity or bookings: 100 seats, none booked. */
  function NewEvent(id: nat, organizer: nat, title: string, description: string,
                    date: int, location: string, category: string): (r: Event)
    ensures r.capacity == 100 && r.bookings == 0
    ensures r.id == id && r.organizer == organizer && r.title == title && r.date == date
    ensures r.description == description && r.location == location && r.category == category
  {
    Event(id, organizer, title, description, date, location, category,
          DefaultCapacity, DefaultBookings)
  }

  /** An attendance created without a seat count reserves one seat. */
  function NewAttendance(id: nat, event: nat, user: nat): (r: Attendance)
    ensures r.numTickets == 1
    ensures r.id == id && r.event == event && r.user == user
  {
    Attendance(id, event, user, DefaultAttendanceTickets)
  }

  /** The related manager `event.attendees`. */
  function AttendeesOf(atts: seq<Attendance>, eventId: nat): seq<Attendance> {
    Keep(atts, (a: Attendance) => a.event == eventId)
  }

  /** The seats counted over some rows. */
  function TotalTickets(rows: seq<Attendance>): nat {
    if rows == [] then 0 else rows[0].numTickets + TotalTickets(rows[1..])
  }

  /** `aggregate(Sum('num_tickets'))`: SQL SUM, which is NULL over no rows. */
  function SumNumTickets(rows: seq<Attendance>): (r: Option<nat>)
    ensures r.None? <==> rows == []
  {
    if rows == [] then None else Some(TotalTickets(rows))
  }

  /** The reserved seats of an event as the ticket save computes them: the
      aggregate over its attendance rows, with NULL read as 0. */
  function ReservedSeats(atts: seq<Attendance>, eventId: nat): nat {
    match SumNumTickets(AttendeesOf(atts, eventId))
    case None => 0
    case Some(n) => n
  }

  lemma {:induction false} TotalTicketsConcat(a: seq<Attendance>, b: seq<Attendance>)
    ensures TotalTickets(a + b) == TotalTickets(a) + TotalTickets(b)
    decreases |a|
  {
    if a == [] {
      assert a + b == b;
    } else {
      assert (a + b)[1..] == a[1..] + b;
      TotalTicketsConcat(a[1..], b);
    }
  }

  /** Reserved seats are the sum over the event's rows: adding a row adds its
      seats to that event's count and to no other. */
  lemma ReservedSeatsAppend(atts: seq<Attendance>, a: Attendance, eventId: nat)
    ensures ReservedSeats(atts + [a], eventId)
            == ReservedSeats(atts, eventId) + (if a.event == eventId then a.numTickets else 0)
  {
    var p := (x: Attendance) => x.event == eventId;
    KeepConcat(atts, [a], p);
    TotalTicketsConcat(Keep(atts, p), Keep([a], p));
    assert [a][1..] == [];
  }

  /** An event without attendance rows has nothing reserved. */
  lemma ReservedSeatsNone(atts: seq<Attendance>, eventId: nat)
    requires forall i :: 0 <= i < |atts| ==> atts[i].event != eventId
    ensures ReservedSeats(atts, eventId) == 0
  {
  }

  /** Every attendance row of the event is covered by its reserved seats. */
  lemma {:induction false} ReservedSeatsCoversRow(atts: seq<Attendance>, i: nat, eventId: nat)
    requires i < |atts| && atts[i].event == eventId
    ensures atts[i].numTickets <= ReservedSeats(atts, eventId)
  {
    assert atts == atts[..i] + [atts[i]] + atts[i + 1..];
    var p := (x: Attendance) => x.event == eventId;
    KeepConcat(atts[..i] + [atts[i]], atts[i + 1..], p);
    KeepConcat(atts[..i], [atts[i]], p);
    assert Keep([atts[i]], p) == [atts[i]];
    TotalTicketsConcat(Keep(atts[..i], p) + [atts[i]], Keep(atts[i + 1..], p));
    TotalTicketsConcat(Keep(atts[..i], p), [atts[i]]);
  }

  /** Removing the rows of other events leaves an event's reserved seats as
      they were. */
  lemma ReservedSeatsIgnoresOtherEvents(atts: seq<Attendance>, keep: Attendance -> bool, eventId: nat)
    requires forall a: Attendance :: a.event == eventId ==> keep(a)
    ensures ReservedSeats(Keep(atts, keep), eventId) == ReservedSeats(atts, eventId)
  {
    var p := (x: Attendance) => x.event == eventId;
    KeepKeep(atts, keep, p, p);
  }

  /** A default attendance row reserves exactly one more seat of its event
      and none of any other. */
  lemma NewAttendanceReservesOne(atts: seq<Attendance>, id: nat, event: nat, user: nat, eventId: nat)
    ensures ReservedSeats(atts + [NewAttendance(id, event, user)], eventId)
            == ReservedSeats(atts, eventId) + (if event == eventId then 1 else 0)
  {
    ReservedSeatsAppend(atts, NewAttendance(id, event, user), eventId);
  }

  /** A default event with no attendance rows has all its 100 seats open. */
  lemma NewEventSeatsOpen(atts: seq<Attendance>, id: nat, organizer: nat, title: string, description: string,
                          date: int, location: string, category: string)
    requires forall i :: 0 <= i < |atts| ==> atts[i].event != id
    ensures NewEvent(id, organizer, title, description, date, location, category).capacity
            - ReservedSeats(atts, id) == 100
  {
    ReservedSeatsNone(atts, id);
  }

  /** `__str__`: the organizer's string form, a space, the title. */
  function EventStr(organizer: Users.User, e: Event): (r: string)
    ensures |r| == |Users.UserStr(organizer)| + 1 + |e.title|
    ensures r[..|Users.UserStr(organizer)|] == Users.UserStr(organizer)
    ensures r[|Users.UserStr(organizer)|] == ' '
    ensures r[|Users.UserStr(organizer)| + 1..] == e.title
  {
    Users.UserStr(organizer) + " " + e.title
  }

  /** For one organizer the string form determines the title. */
  lemma EventStrDeterminesTitle(organizer: Users.User, e1: Event, e2: Event)
    requires EventStr(organizer, e1) == EventStr(organizer, e2)
    ensures e1.title == e2.title
  {
    var n := |Users.UserStr(organizer)| + 1;
    assert e1.title == EventStr(organizer, e1)[n..];
  }
}

=== FILE: results.dfy ===
/** Optional values and success-or-error results, used wherever the Django code
    returns None, raises, or answers with an HTTP error. */
module Results {

  /** A value that may be missing: a nullable column, an absent query
      parameter, a lookup that found nothing. */
  datatype Option<+T> = None | Some(value: T) {
    function GetOr(default: T): T {
      match this
      case Some(v) => v
      case None => default
    }
  }

  /** The outcome of an operation that either produces a value or fails with
      one of the Django code's error conditions. */
  datatype Result<+R, +E> = Success(value: R) | Failure(error: E)
}

=== FILE: review_views.dfy ===
/** `ReviewListCreate.post`: a review may be created only for an event that
    has taken place and by a user holding a ticket for it. */
module ReviewViews {
  import opened Results
  import opened Seqs
  import opened Users
  import opened Events
  import opened Tickets
  import opened Reviews
  import opened Store
  import opened Text

  /** The review fields the serializer reads from the request body. */
  datatype ReviewPayload = ReviewPayload(event: nat, user: nat, rating: int, comment: string)

  /** `eventId` is the `event_id` field, `None` when it is missing or is not
      a key; `actingUser` is the authenticated user. */
  datatype ReviewRequest = ReviewRequest(eventId: Option<nat>, actingUser: nat, payload: ReviewPayload)

  /** The gate's answer: a 404, one of the two 400s, or go on to create. */
  datatype Decision = EventNotFound | EventNotYetOccurred | NoTicketHeld | Proceed

  /** The user owns some ticket, of any status, for the event. */
  predicate HoldsTicket(tickets: seq<Ticket>, user: nat, eventId: nat) {
    exists i :: 0 <= i < |tickets| && tickets[i].owner == user && tickets[i].event == eventId
  }

  /** The eligibility checks in their order: the event must exist, must not
      lie after today, and the user must hold a ticket for it. */
  function ReviewGate(db: Db, eventId: Option<nat>, user: nat, today: int): (d: Decision)
    ensures d == Proceed ==>
              exists e :: e in db.events && Some(e.id) == eventId && e.date <= today
                           && HoldsTicket(db.tickets, user, e.id)
    ensures eventId.None? ==> d == EventNotFound
  {
    if eventId.None? then EventNotFound
    else
      match FindEvent(db.events, eventId.value)
      case None => EventNotFound
      case Some(e) =>
        if e.date > today then EventNotYetOccurred
        else if !HoldsTicket(db.tickets, user, e.id) then NoTicketHeld
        else Proceed
  }

  /** An event lying in the future is refused whether or not the user holds a
      ticket: the date check comes first. */
  lemma FutureEventRefused(db: Db, e: Event, user: nat, today: int)
    requires Injective(db.events, IdOfEvent)
    requires e in db.events && e.date > today
    ensures ReviewGate(db, Some(e.id), user, today) == EventNotYetOccurred
  {
    FindEventUnique(db.events, e.id, e);
  }

  /** A past or current event is refused to a user with no ticket for it. */
  lemma NoTicketRefused(db: Db, e: Event, user: nat, today: int)
    requires Injective(db.events, IdOfEvent)
    requires e in db.events && e.date <= today && !HoldsTicket(db.tickets, user, e.id)
    ensures ReviewGate(db, Some(e.id), user, today) == NoTicketHeld
  {
    FindEventUnique(db.events, e.id, e);
  }

  /** An id naming no event is a 404. */
  lemma UnknownEventNotFound(db: Db, id: nat, user: nat, today: int)
    requires !EventExists(db, id)
    ensures ReviewGate(db, Some(id), user, today) == EventNotFound
  {
  }

  /** The gate lets a request through exactly when both checks pass. */
  lemma GateProceedsIff(db: Db, e: Event, user: nat, today: int)
    requires Injective(db.events, IdOfEvent)
    requires e in db.events
    ensures ReviewGate(db, Some(e.id), user, today) == Proceed <==>
              e.date <= today && HoldsTicket(db.tickets, user, e.id)
  {
    FindEventUnique(db.events, e.id, e);
  }

  /** What the request produced. */
  datatype PostOutcome = Refused(decision: Decision) | InvalidPayload | Created(review: Review)

  /** A review id above every stored one. */
  function NextReviewId(reviews: seq<Review>): (r: nat)
    ensures forall i :: 0 <= i < |reviews| ==> reviews[i].id < r
    decreases |reviews|
  {
    if reviews == [] then 1
    else
      var rest := NextReviewId(reviews[1..]);
      assert forall i :: 1 <= i < |reviews| ==> reviews[i] == reviews[1..][i - 1];
      if reviews[0].id + 1 > rest then reviews[0].id + 1 else rest
  }

  /** What the serializer accepts: a rating among the choices, an event and a
      user that exist, and a comment that is not blank once trimmed (the
      `TextField` has no `blank=True`) and holds no NUL character (the text
      field's validator prohibiting null characters). */
  predicate PayloadValid(db: Db, p: ReviewPayload) {
    && ValidRating(p.rating) && EventExists(db, p.event) && UserExists(db, p.user)
    && Trim(p.comment) != "" && '\0' !in Trim(p.comment)
  }

  /** The whole request: the gate, then the serializer's create, which stores
      the trimmed comment and stamps `created_at` with today. */
  function PostReview(db: Db, req: ReviewRequest, today: int): (out: (Db, PostOutcome))
    ensures !out.1.Created? ==> out.0 == db
    ensures out.1.Refused? <==> ReviewGate(db, req.eventId, req.actingUser, today) != Proceed
    ensures out.1 == InvalidPayload <==>
              ReviewGate(db, req.eventId, req.actingUser, today) == Proceed && !PayloadValid(db, req.payload)
    ensures out.1.Created? <==>
              ReviewGate(db, req.eventId, req.actingUser, today) == Proceed && PayloadValid(db, req.payload)
    ensures out.1.Created? ==>
              && out.1.review.event == req.payload.event
              && out.1.review.user == req.payload.user
              && out.1.review.rating == req.payload.rating
              && out.1.review.comment == Trim(req.payload.comment)
              && out.1.review.createdAt == today
              && !KeyTaken(db.reviews, IdOfReview, out.1.review.id)
              && out.0 == db.(reviews := db.reviews + [out.1.review])
  {
    var d := ReviewGate(db, req.eventId, req.actingUser, today);
    if d != Proceed then (db, Refused(d))
    else
      var p := req.payload;
      if !PayloadValid(db, p) then (db, InvalidPayload)
      else
        var r := Review(NextReviewId(db.reviews), p.event, p.user, p.rating, Trim(p.comment), today);
        (db.(reviews := db.reviews + [r]), Created(r))
  }

  /** A comment of whitespace alone is refused even when the gate lets the
      request through. */
  lemma BlankCommentRefused(db: Db, req: ReviewRequest, today: int)
    requires ReviewGate(db, req.eventId, req.actingUser, today) == Proceed
    requires forall k :: 0 <= k < |req.payload.comment| ==> IsSpace(req.payload.comment[k])
    ensures PostReview(db, req, today).1 == InvalidPayload
    ensures PostReview(db, req, today).0 == db
  {
  }

  /** A comment holding a NUL character is refused even when the gate lets
      the request through. */
  lemma NulCommentRefused(db: Db, req: ReviewRequest, today: int, k: nat)
    requires ReviewGate(db, req.eventId, req.actingUser, today) == Proceed
    requires k < |req.payload.comment| && req.payload.comment[k] == '\0'
    ensures PostReview(db, req, today).1 == InvalidPayload
    ensures PostReview(db, req, today).0 == db
  {
    var c := req.payload.comment;
    var r := Trim(c);
    if r != "" {
      var i, j :| 0 <= i <= j <= |c| && r == c[i..j]
                  && (forall m :: 0 <= m < i ==> IsSpace(c[m]))
                  && (forall m :: j <= m < |c| ==> IsSpace(c[m]));
      assert !IsSpace(c[k]);
      assert r[k - i] == '\0';
    }
  }

  /** Appending a review with a fresh id whose event and user exist keeps the
      reviews' part of the invariant. */
  lemma AppendKeepsReviewsValid(db: Db, r: Review)
    requires ReviewsValid(db)
    requires !KeyTaken(db.reviews, IdOfReview, r.id) && EventExists(db, r.event) && UserExists(db, r.user)
    ensures ReviewsValid(db.(reviews := db.reviews + [r]))
  {
    var db' := db.(reviews := db.reviews + [r]);
    forall y | y in db.reviews ensures IdOfReview(y) != IdOfReview(r) {
    }
    InjectiveAppend(db.reviews, r, IdOfReview);
    forall i | 0 <= i < |db'.reviews|
      ensures EventExists(db', db'.reviews[i].event) && UserExists(db', db'.reviews[i].user)
    {
      if i < |db.reviews| {
        assert db'.reviews[i] == db.reviews[i];
      }
    }
  }

  /** Creating a review keeps the store's invariant. */
  lemma PostReviewPreservesValid(db: Db, req: ReviewRequest, today: int)
    requires Valid(db)
    ensures Valid(PostReview(db, req, today).0)
  {
    var out := PostReview(db, req, today);
    if out.1.Created? {
      AppendKeepsReviewsValid(db, out.1.review);
    }
  }

  /** What the view as written answers before it can reach the serializer. */
  datatype AsWrittenOutcome = NotFound404 | ServerError

  /** The gate as written: once the event is found, reading `event.datetime`
      raises, because the field is `date`; so every request naming an
      existing event ends in a server error. */
  function ReviewGateAsWritten(db: Db, eventId: Option<nat>): (r: AsWrittenOutcome)
    ensures r == ServerError <==> eventId.Some? && EventExists(db, eventId.value)
  {
    if eventId.None? || FindEvent(db.events, eventId.value).None? then NotFound404
    else ServerError
  }

  /** As written, even a request the intended gate lets through fails, so no
      review can ever be created by this view. */
  lemma AsWrittenRefusesEligibleRequests(db: Db, req: ReviewRequest, today: int)
    requires ReviewGate(db, req.eventId, req.actingUser, today) == Proceed
    ensures ReviewGateAsWritten(db, req.eventId) == ServerError
  {
  }

  /** The intended gate does let an eligible request create a review. */
  lemma IntendedGateCreates()
    ensures var u := User(1, "buyer", "Ann", "Lee", "", "", "", None, "@ann");
            var e := Event(1, 1, "Gig", "", 5, "Kyiv", "music", 10, 0);
            var t := Ticket(Some(1), 1, 1, Price(500), 5, 1, 5, Active);
            var db := Db([u], [e], [], [t], []);
            var req := ReviewRequest(Some(1), 1, ReviewPayload(1, 1, 5, "good"));
            && PostReview(db, req, 6).1.Created?
            && ReviewGateAsWritten(db, req.eventId) == ServerError
  {
    var u := User(1, "buyer", "Ann", "Lee", "", "", "", None, "@ann");
    var e := Event(1, 1, "Gig", "", 5, "Kyiv", "music", 10, 0);
    var t := Ticket(Some(1), 1, 1, Price(500), 5, 1, 5, Active);
    var db := Db([u], [e], [], [t], []);
    assert HoldsTicket(db.tickets, 1, 1) by {
      assert db.tickets[0] == t;
    }
    assert EventExists(db, 1) by {
      assert IdOfEvent(db.events[0]) == 1;
    }
    assert UserExists(db, 1) by {
      assert IdOfUser(db.users[0]) == 1;
    }
  }
}

=== FILE: reviews.dfy ===
/** The review record. */
module Reviews {

  const MinRating: int := 1
  const MaxRating: int := 5

  /** `createdAt` is a day number stamped at creation. */
  datatype Review = Review(id: nat, event: nat, user: nat, rating: int, comment: string, createdAt: int)

  /** `rating` takes one of the choices 1 to 5. */
  predicate ValidRating(rating: int) {
    MinRating <= rating <= MaxRating
  }
}

=== FILE: seqs.dfy ===
/** Row selection over tables held as sequences: the `filter(...)` of a
    queryset, and the uniqueness of a column or column pair. */
module Seqs {

  /** The rows of `s` satisfying `p`, in their original order. */
  function Keep<T(==)>(s: seq<T>, p: T -> bool): (r: seq<T>)
    ensures |r| <= |s|
    ensures forall i :: 0 <= i < |r| ==> r[i] in s && p(r[i])
    ensures forall i :: 0 <= i < |s| && p(s[i]) ==> s[i] in r
    decreases |s|
  {
    if s == [] then []
    else if p(s[0]) then [s[0]] + Keep(s[1..], p)
    else Keep(s[1..], p)
  }

  /** No two rows of `s` agree on `key`: a primary key or a `unique_together`
      constraint. */
  ghost predicate Injective<T, K>(s: seq<T>, key: T -> K) {
    forall i, j :: 0 <= i < |s| && 0 <= j < |s| && key(s[i]) == key(s[j]) ==> i == j
  }

  /** Some row of `s` has key `k`. */
  predicate KeyTaken<T, K(==)>(s: seq<T>, key: T -> K, k: K) {
    exists i :: 0 <= i < |s| && key(s[i]) == k
  }

  /** Selecting from the concatenation of two tables selects from each. */
  lemma {:induction false} KeepConcat<T>(a: seq<T>, b: seq<T>, p: T -> bool)
    ensures Keep(a + b, p) == Keep(a, p) + Keep(b, p)
    decreases |a|
  {
    if a == [] {
      assert a + b == b;
    } else {
      assert (a + b)[0] == a[0];
      assert (a + b)[1..] == a[1..] + b;
      KeepConcat(a[1..], b, p);
    }
  }

  /** Two successive filters are one filter by their conjunction. */
  lemma {:induction false} KeepKeep<T>(s: seq<T>, p: T -> bool, q: T -> bool, both: T -> bool)
    requires forall x :: both(x) == (p(x) && q(x))
    ensures Keep(Keep(s, p), q) == Keep(s, both)
    decreases |s|
  {
    if s != [] {
      KeepKeep(s[1..], p, q, both);
    }
  }

  /** A filter every row passes selects the whole table. */
  lemma {:induction false} KeepAll<T>(s: seq<T>, p: T -> bool)
    requires forall x :: x in s ==> p(x)
    ensures Keep(s, p) == s
    decreases |s|
  {
    if s != [] {
      assert s[0] in s;
      forall x | x in s[1..] ensures p(x) {
        assert x in s;
      }
      KeepAll(s[1..], p);
      assert [s[0]] + s[1..] == s;
    }
  }

  /** Filtering never breaks a uniqueness constraint. */
  lemma {:induction false} KeepInjective<T, K>(s: seq<T>, p: T -> bool, key: T -> K)
    requires Injective(s, key)
    ensures Injective(Keep(s, p), key)
    decreases |s|
  {
    if s != [] {
      var t := s[1..];
      assert Injective(t, key) by {
        forall i, j | 0 <= i < |t| && 0 <= j < |t| && key(t[i]) == key(t[j])
          ensures i == j
        {
          assert s[i + 1] == t[i] && s[j + 1] == t[j];
        }
      }
      KeepInjective(t, p, key);
      var k := Keep(t, p);
      if p(s[0]) {
        var r := [s[0]] + k;
        forall j | 0 <= j < |k|
          ensures key(s[0]) != key(k[j])
        {
          assert k[j] in t;
          var m :| 0 <= m < |t| && t[m] == k[j];
          assert s[m + 1] == k[j];
        }
        forall i, j | 0 <= i < |r| && 0 <= j < |r| && key(r[i]) == key(r[j])
          ensures i == j
        {
          if i > 0 && j > 0 {
            assert r[i] == k[i - 1] && r[j] == k[j - 1];
          }
        }
      }
    }
  }

  /** Appending a row whose key is not taken keeps a uniqueness constraint. */
  lemma InjectiveAppend<T, K>(s: seq<T>, x: T, key: T -> K)
    requires Injective(s, key)
    requires forall y :: y in s ==> key(y) != key(x)
    ensures Injective(s + [x], key)
  {
    var r := s + [x];
    forall i, j | 0 <= i < |r| && 0 <= j < |r| && key(r[i]) == key(r[j])
      ensures i == j
    {
      if i < |s| {
        assert r[i] == s[i] && s[i] in s;
      }
      if j < |s| {
        assert r[j] == s[j] && s[j] in s;
      }
    }
  }

  /** A row that passes the filter keeps its key present. */
  lemma KeptKey<T, K>(s: seq<T>, p: T -> bool, key: T -> K, k: K)
    requires KeyTaken(s, key, k)
    requires forall i :: 0 <= i < |s| && key(s[i]) == k ==> p(s[i])
    ensures KeyTaken(Keep(s, p), key, k)
  {
    var i :| 0 <= i < |s| && key(s[i]) == k;
    var r := Keep(s, p);
    assert s[i] in r;
    var j :| 0 <= j < |r| && r[j] == s[i];
  }
}

=== FILE: store.dfy ===
/** The database as one immutable value: the tables, the schema's invariants
    (primary keys, `unique_together` pairs, foreign keys) and the writes that
    keep them: inserts that fail with an integrity error and deletes that
    cascade. */
module Store {
  import opened Results
  import opened Seqs
  import opened Users
  import opened Events
  import opened Tickets
  import opened Reviews

  datatype Db = Db(
    users: seq<User>,
    events: seq<Event>,
    attendances: seq<Attendance>,
    tickets: seq<Ticket>,
    reviews: seq<Review>)

  /** The constraint a rejected insert would have broken. */
  datatype IntegrityError =
    | PkTaken
    | UsernameTaken
    | NameTaken
    | OrganizerTitleTaken
    | EventUserTaken
    | MissingUser
    | MissingEvent

  // Column keys of the tables.
  function IdOfUser(u: User): nat { u.id }
  function UsernameOf(u: User): string { u.username }
  function NamePairOf(u: User): (string, string) { (u.firstName, u.lastName) }
  function IdOfEvent(e: Event): nat { e.id }
  function OrganizerTitleOf(e: Event): (nat, string) { (e.organizer, e.title) }
  function IdOfAttendance(a: Attendance): nat { a.id }
  function EventUserOf(a: Attendance): (nat, nat) { (a.event, a.user) }
  function PkOf(t: Ticket): Option<nat> { t.pk }
  function IdOfReview(r: Review): nat { r.id }

  predicate UserExists(db: Db, id: nat) {
    KeyTaken(db.users, IdOfUser, id)
  }

  predicate EventExists(db: Db, id: nat) {
    KeyTaken(db.events, IdOfEvent, id)
  }

  /** `username` is unique and `(first_name, last_name)` is unique together. */
  ghost predicate UsersValid(db: Db) {
    && Injective(db.users, IdOfUser)
    && Injective(db.users, UsernameOf)
    && Injective(db.users, NamePairOf)
  }

  /** `(organizer, title)` is unique together and the organizer exists. */
  ghost predicate EventsValid(db: Db) {
    && Injective(db.events, IdOfEvent)
    && Injective(db.events, OrganizerTitleOf)
    && forall i :: 0 <= i < |db.events| ==> UserExists(db, db.events[i].organizer)
  }

  /** `(event, user)` is unique together and both ends exist. */
  ghost predicate AttendancesValid(db: Db) {
    && Injective(db.attendances, IdOfAttendance)
    && Injective(db.attendances, EventUserOf)
    && (forall i :: 0 <= i < |db.attendances| ==> EventExists(db, db.attendances[i].event))
    && (forall i :: 0 <= i < |db.attendances| ==> UserExists(db, db.attendances[i].user))
  }

  /** Stored tickets have distinct primary keys, and their event and owner exist. */
  ghost predicate TicketsValid(db: Db) {
    && (forall i :: 0 <= i < |db.tickets| ==> db.tickets[i].pk.Some?)
    && Injective(db.tickets, PkOf)
    && (forall i :: 0 <= i < |db.tickets| ==> EventExists(db, db.tickets[i].event))
    && (forall i :: 0 <= i < |db.tickets| ==> UserExists(db, db.tickets[i].owner))
  }

  ghost predicate ReviewsValid(db: Db) {
    && Injective(db.reviews, IdOfReview)
    && (forall i :: 0 <= i < |db.reviews| ==> EventExists(db, db.reviews[i].event))
    && (forall i :: 0 <= i < |db.reviews| ==> UserExists(db, db.reviews[i].user))
  }

  /** The schema's invariant over the whole store. */
  ghost predicate Valid(db: Db) {
    UsersValid(db) && EventsValid(db) && AttendancesValid(db) && TicketsValid(db) && ReviewsValid(db)
  }

  /** The row of `events` with primary key `id`, if any. */
  function FindEvent(events: seq<Event>, id: nat): (r: Option<Event>)
    ensures r.Some? ==> r.value in events && r.value.id == id
    ensures r.None? <==> !KeyTaken(events, IdOfEvent, id)
    decreases |events|
  {
    if events == [] then None
    else if events[0].id == id then Some(events[0])
    else
      var r := FindEvent(events[1..], id);
      assert KeyTaken(events, IdOfEvent, id) ==> KeyTaken(events[1..], IdOfEvent, id) by {
        if KeyTaken(events, IdOfEvent, id) {
          var i :| 0 <= i < |events| && IdOfEvent(events[i]) == id;
          assert events[1..][i - 1] == events[i];
        }
      }
      assert KeyTaken(events[1..], IdOfEvent, id) ==> KeyTaken(events, IdOfEvent, id) by {
        if KeyTaken(events[1..], IdOfEvent, id) {
          var i :| 0 <= i < |events[1..]| && IdOfEvent(events[1..][i]) == id;
          assert events[i + 1] == events[1..][i];
        }
      }
      r
  }

  /** The row of `users` with primary key `id`, if any. */
  function FindUser(users: seq<User>, id: nat): (r: Option<User>)
    ensures r.Some? ==> r.value in users && r.value.id == id
    ensures r.None? <==> !KeyTaken(users, IdOfUser, id)
    decreases |users|
  {
    if users == [] then None
    else if users[0].id == id then Some(users[0])
    else
      var r := FindUser(users[1..], id);
      assert KeyTaken(users, IdOfUser, id) ==> KeyTaken(users[1..], IdOfUser, id) by {
        if KeyTaken(users, IdOfUser, id) {
          var i :| 0 <= i < |users| && IdOfUser(users[i]) == id;
          assert users[1..][i - 1] == users[i];
        }
      }
      assert KeyTaken(users[1..], IdOfUser, id) ==> KeyTaken(users, IdOfUser, id) by {
        if KeyTaken(users[1..], IdOfUser, id) {
          var i :| 0 <= i < |users[1..]| && IdOfUser(users[1..][i]) == id;
          assert users[i + 1] == users[1..][i];
        }
      }
      r
  }

  /** With primary keys unique, the row found is the only one with that key. */
  lemma FindEventUnique(events: seq<Event>, id: nat, e: Event)
    requires Injective(events, IdOfEvent)
    requires e in events && e.id == id
    ensures FindEvent(events, id) == Some(e)
  {
    var f := FindEvent(events, id).value;
    var i :| 0 <= i < |events| && events[i] == e;
    var j :| 0 <= j < |events| && events[j] == f;
    assert IdOfEvent(events[i]) == IdOfEvent(events[j]);
  }

  /** Inserting a user: the primary key, `username` and the name pair must be
      free. */
  function InsertUser(db: Db, u: User): (r: Result<Db, IntegrityError>)
    ensures r.Success? <==>
              && !KeyTaken(db.users, IdOfUser, u.id)
              && !KeyTaken(db.users, UsernameOf, u.username)
              && !KeyTaken(db.users, NamePairOf, NamePairOf(u))
    ensures r.Success? ==> r.value == db.(users := db.users + [u])
  {
    if KeyTaken(db.users, IdOfUser, u.id) then Failure(PkTaken)
    else if KeyTaken(db.users, UsernameOf, u.username) then Failure(UsernameTaken)
    else if KeyTaken(db.users, NamePairOf, NamePairOf(u)) then Failure(NameTaken)
    else Success(db.(users := db.users + [u]))
  }

  /** Inserting an event: the primary key and `(organizer, title)` must be free
      and the organizer must exist. */
  function InsertEvent(db: Db, e: Event): (r: Result<Db, IntegrityError>)
    ensures r.Success? <==>
              && !KeyTaken(db.events, IdOfEvent, e.id)
              && !KeyTaken(db.events, OrganizerTitleOf, OrganizerTitleOf(e))
              && UserExists(db, e.organizer)
    ensures r.Success? ==> r.value == db.(events := db.events + [e])
  {
    if KeyTaken(db.events, IdOfEvent, e.id) then Failure(PkTaken)
    else if KeyTaken(db.events, OrganizerTitleOf, OrganizerTitleOf(e)) then Failure(OrganizerTitleTaken)
    else if !UserExists(db, e.organizer) then Failure(MissingUser)
    else Success(db.(events := db.events + [e]))
  }

  /** Inserting an attendance: the primary key and `(event, user)` must be
      free and both ends must exist. */
  function InsertAttendance(db: Db, a: Attendance): (r: Result<Db, IntegrityError>)
    ensures r.Success? <==>
              && !KeyTaken(db.attendances, IdOfAttendance, a.id)
              && !KeyTaken(db.attendances, EventUserOf, EventUserOf(a))
              && EventExists(db, a.event) && UserExists(db, a.user)
    ensures r.Success? ==> r.value == db.(attendances := db.attendances + [a])
  {
    if KeyTaken(db.attendances, IdOfAttendance, a.id) then Failure(PkTaken)
    else if KeyTaken(db.attendances, EventUserOf, EventUserOf(a)) then Failure(EventUserTaken)
    else if !EventExists(db, a.event) then Failure(MissingEvent)
    else if !UserExists(db, a.user) then Failure(MissingUser)
    else Success(db.(attendances := db.attendances + [a]))
  }

  /** A key that is not taken differs from every row's key. */
  lemma NotTaken<T, K>(s: seq<T>, key: T -> K, k: K)
    requires !KeyTaken(s, key, k)
    ensures forall y :: y in s ==> key(y) != k
  {
  }

  /** A key taken in a table is still taken once a row is appended. */
  lemma TakenAfterAppend<T, K>(s: seq<T>, x: T, key: T -> K, k: K)
    requires KeyTaken(s, key, k)
    ensures KeyTaken(s + [x], key, k)
  {
    var i :| 0 <= i < |s| && key(s[i]) == k;
    assert (s + [x])[i] == s[i];
  }

  lemma InsertUserPreservesValid(db: Db, u: User)
    requires Valid(db)
    requires InsertUser(db, u).Success?
    ensures Valid(InsertUser(db, u).value)
  {
    var db' := InsertUser(db, u).value;
    NotTaken(db.users, IdOfUser, u.id);
    NotTaken(db.users, UsernameOf, u.username);
    NotTaken(db.users, NamePairOf, NamePairOf(u));
    InjectiveAppend(db.users, u, IdOfUser);
    InjectiveAppend(db.users, u, UsernameOf);
    InjectiveAppend(db.users, u, NamePairOf);
    forall k | UserExists(db, k) ensures UserExists(db', k) {
      TakenAfterAppend(db.users, u, IdOfUser, k);
    }
  }

  lemma InsertEventPreservesValid(db: Db, e: Event)
    requires Valid(db)
    requires InsertEvent(db, e).Success?
    ensures Valid(InsertEvent(db, e).value)
  {
    var db' := InsertEvent(db, e).value;
    NotTaken(db.events, IdOfEvent, e.id);
    NotTaken(db.events, OrganizerTitleOf, OrganizerTitleOf(e));
    InjectiveAppend(db.events, e, IdOfEvent);
    InjectiveAppend(db.events, e, OrganizerTitleOf);
    forall k | EventExists(db, k) ensures EventExists(db', k) {
      TakenAfterAppend(db.events, e, IdOfEvent, k);
    }
    assert EventsValid(db') by {
      forall i | 0 <= i < |db'.events| ensures UserExists(db', db'.events[i].organizer) {
        if i < |db.events| {
          assert db'.events[i] == db.events[i];
        }
      }
    }
  }

  lemma InsertAttendancePreservesValid(db: Db, a: Attendance)
    requires Valid(db)
    requires InsertAttendance(db, a).Success?
    ensures Valid(InsertAttendance(db, a).value)
  {
    var db' := InsertAttendance(db, a).value;
    NotTaken(db.attendances, IdOfAttendance, a.id);
    NotTaken(db.attendances, EventUserOf, EventUserOf(a));
    InjectiveAppend(db.attendances, a, IdOfAttendance);
    InjectiveAppend(db.attendances, a, EventUserOf);
    assert AttendancesValid(db') by {
      forall i | 0 <= i < |db'.attendances|
        ensures EventExists(db', db'.attendances[i].event) && UserExists(db', db'.attendances[i].user)
      {
        if i < |db.attendances| {
          assert db'.attendances[i] == db.attendances[i];
        }
      }
    }
  }

  /** Deleting an event cascades to its attendance rows, tickets and reviews. */
  function DeleteEvent(db: Db, id: nat): (r: Db)
    ensures r.users == db.users
    ensures forall e :: e in r.events <==> e in db.events && e.id != id
    ensures forall a :: a in r.attendances <==> a in db.attendances && a.event != id
    ensures forall t :: t in r.tickets <==> t in db.tickets && t.event != id
    ensures forall v :: v in r.reviews <==> v in db.reviews && v.event != id
  {
    Db(db.users,
       Keep(db.events, (e: Event) => e.id != id),
       Keep(db.attendances, (a: Attendance) => a.event != id),
       Keep(db.tickets, (t: Ticket) => t.event != id),
       Keep(db.reviews, (v: Review) => v.event != id))
  }

  /** The attendance rows of other events keep their reserved seats. */
  lemma DeleteEventKeepsOtherReservations(db: Db, id: nat, other: nat)
    requires other != id
    ensures ReservedSeats(DeleteEvent(db, id).attendances, other) == ReservedSeats(db.attendances, other)
  {
    ReservedSeatsIgnoresOtherEvents(db.attendances, (a: Attendance) => a.event != id, other);
  }

  lemma DeleteEventPreservesValid(db: Db, id: nat)
    requires Valid(db)
    ensures Valid(DeleteEvent(db, id))
  {
    var db' := DeleteEvent(db, id);
    KeepInjective(db.events, (e: Event) => e.id != id, IdOfEvent);
    KeepInjective(db.events, (e: Event) => e.id != id, OrganizerTitleOf);
    KeepInjective(db.attendances, (a: Attendance) => a.event != id, IdOfAttendance);
    KeepInjective(db.attendances, (a: Attendance) => a.event != id, EventUserOf);
    KeepInjective(db.tickets, (t: Ticket) => t.event != id, PkOf);
    KeepInjective(db.reviews, (v: Review) => v.event != id, IdOfReview);
    forall k | k != id && EventExists(db, k) ensures EventExists(db', k) {
      KeptKey(db.events, (e: Event) => e.id != id, IdOfEvent, k);
    }
    assert EventsValid(db') by {
      forall i | 0 <= i < |db'.events| ensures UserExists(db', db'.events[i].organizer) {
        assert db'.events[i] in db.events;
      }
    }
    assert AttendancesValid(db') by {
      forall i | 0 <= i < |db'.attendances|
        ensures EventExists(db', db'.attendances[i].event) && UserExists(db', db'.attendances[i].user)
      {
        assert db'.attendances[i] in db.attendances;
      }
    }
    assert TicketsValid(db') by {
      forall i | 0 <= i < |db'.tickets|
        ensures db'.tickets[i].pk.Some?
        ensures EventExists(db', db'.tickets[i].event) && UserExists(db', db'.tickets[i].owner)
      {
        assert db'.tickets[i] in db.tickets;
      }
    }
    assert ReviewsValid(db') by {
      forall i | 0 <= i < |db'.reviews|
        ensures EventExists(db', db'.reviews[i].event) && UserExists(db', db'.reviews[i].user)
      {
        assert db'.reviews[i] in db.reviews;
      }
    }
  }

  /** Some event with primary key `eventId` is organized by `uid`. */
  predicate OrganizedBy(events: seq<Event>, eventId: nat, uid: nat) {
    exists i :: 0 <= i < |events| && events[i].id == eventId && events[i].organizer == uid
  }

  /** Deleting a user cascades to the events they organize (and through them
      to those events' rows) and to their own attendance rows, tickets and
      reviews. */
  function DeleteUser(db: Db, uid: nat): (r: Db)
    ensures forall u :: u in r.users <==> u in db.users && u.id != uid
    ensures forall e :: e in r.events <==> e in db.events && e.organizer != uid
    ensures forall a :: a in r.attendances <==>
              a in db.attendances && a.user != uid && !OrganizedBy(db.events, a.event, uid)
    ensures forall t :: t in r.tickets <==>
              t in db.tickets && t.owner != uid && !OrganizedBy(db.events, t.event, uid)
    ensures forall v :: v in r.reviews <==>
              v in db.reviews && v.user != uid && !OrganizedBy(db.events, v.event, uid)
  {
    Db(Keep(db.users, (u: User) => u.id != uid),
       Keep(db.events, (e: Event) => e.organizer != uid),
       Keep(db.attendances, (a: Attendance) => a.user != uid && !OrganizedBy(db.events, a.event, uid)),
       Keep(db.tickets, (t: Ticket) => t.owner != uid && !OrganizedBy(db.events, t.event, uid)),
       Keep(db.reviews, (v: Review) => v.user != uid && !OrganizedBy(db.events, v.event, uid)))
  }

  /** A row referring to an event the user does not organize still finds
      that event after the cascade. */
  lemma SurvivingEvent(db: Db, uid: nat, k: nat)
    requires Valid(db)
    requires EventExists(db, k) && !OrganizedBy(db.events, k, uid)
    ensures EventExists(DeleteUser(db, uid), k)
  {
    KeptKey(db.events, (e: Event) => e.organizer != uid, IdOfEvent, k);
  }

  lemma SurvivingUser(db: Db, uid: nat, k: nat)
    requires UserExists(db, k) && k != uid
    ensures UserExists(DeleteUser(db, uid), k)
  {
    KeptKey(db.users, (u: User) => u.id != uid, IdOfUser, k);
  }

  lemma DeleteUserPreservesValid(db: Db, uid: nat)
    requires Valid(db)
    ensures Valid(DeleteUser(db, uid))
  {
    var db' := DeleteUser(db, uid);
    KeepInjective(db.users, (u: User) => u.id != uid, IdOfUser);
    KeepInjective(db.users, (u: User) => u.id != uid, UsernameOf);
    KeepInjective(db.users, (u: User) => u.id != uid, NamePairOf);
    KeepInjective(db.events, (e: Event) => e.organizer != uid, IdOfEvent);
    KeepInjective(db.events, (e: Event) => e.organizer != uid, OrganizerTitleOf);
    KeepInjective(db.attendances, (a: Attendance) => a.user != uid && !OrganizedBy(db.events, a.event, uid), IdOfAttendance);
    KeepInjective(db.attendances, (a: Attendance) => a.user != uid && !OrganizedBy(db.events, a.event, uid), EventUserOf);
    KeepInjective(db.tickets, (t: Ticket) => t.owner != uid && !OrganizedBy(db.events, t.event, uid), PkOf);
    KeepInjective(db.reviews, (v: Review) => v.user != uid && !OrganizedBy(db.events, v.event, uid), IdOfReview);
    assert EventsValid(db') by {
      forall i | 0 <= i < |db'.events| ensures UserExists(db', db'.events[i].organizer) {
        assert db'.events[i] in db.events;
        SurvivingUser(db, uid, db'.events[i].organizer);
      }
    }
    assert AttendancesValid(db') by {
      forall i | 0 <= i < |db'.attendances|
        ensures EventExists(db', db'.attendances[i].event) && UserExists(db', db'.attendances[i].user)
      {
        assert db'.attendances[i] in db.attendances;
        SurvivingEvent(db, uid, db'.attendances[i].event);
        SurvivingUser(db, uid, db'.attendances[i].user);
      }
    }
    assert TicketsValid(db') by {
      forall i | 0 <= i < |db'.tickets|
        ensures db'.tickets[i].pk.Some?
        ensures EventExists(db', db'.tickets[i].event) && UserExists(db', db'.tickets[i].owner)
      {
        assert db'.tickets[i] in db.tickets;
        SurvivingEvent(db, uid, db'.tickets[i].event);
        SurvivingUser(db, uid, db'.tickets[i].owner);
      }
    }
    assert ReviewsValid(db') by {
      forall i | 0 <= i < |db'.reviews|
        ensures EventExists(db', db'.reviews[i].event) && UserExists(db', db'.reviews[i].user)
      {
        assert db'.reviews[i] in db.reviews;
        SurvivingEvent(db, uid, db'.reviews[i].event);
        SurvivingUser(db, uid, db'.reviews[i].user);
      }
    }
  }

  /** With `(organizer, title)` unique together, two stored events of one
      organizer print alike only when they are the same event. */
  lemma EventStrUniquePerOrganizer(db: Db, organizer: User, e1: Event, e2: Event)
    requires Injective(db.events, OrganizerTitleOf)
    requires e1 in db.events && e2 in db.events
    requires e1.organizer == organizer.id && e2.organizer == organizer.id
    requires EventStr(organizer, e1) == EventStr(organizer, e2)
    ensures e1 == e2
  {
    EventStrDeterminesTitle(organizer, e1, e2);
    var i :| 0 <= i < |db.events| && db.events[i] == e1;
    var j :| 0 <= j < |db.events| && db.events[j] == e2;
    assert OrganizerTitleOf(db.events[i]) == OrganizerTitleOf(db.events[j]);
  }
}

=== FILE: text.dfy ===
/** Case-insensitive substring matching, the `__icontains` lookup of the
    event list filters, and the whitespace trimming of text fields. Case
    folding and whitespace cover the ASCII characters. */
module Text {

  function LowerChar(c: char): char {
    if 'A' <= c <= 'Z' then (c as int + 32) as char else c
  }

  /** `s` with every ASCII capital replaced by its small letter. */
  function Lower(s: string): (r: string)
    ensures |r| == |s|
    ensures forall i :: 0 <= i < |s| ==> r[i] == LowerChar(s[i])
  {
    seq(|s|, i requires 0 <= i < |s| => LowerChar(s[i]))
  }

  /** `needle` sits in `hay` starting at position `i`. */
  predicate BlockAt(hay: string, needle: string, i: nat) {
    i + |needle| <= |hay| && hay[i..i + |needle|] == needle
  }

  /** `needle` occurs as a contiguous block somewhere in `hay`. */
  ghost predicate Occurs(hay: string, needle: string) {
    exists i: nat :: BlockAt(hay, needle, i)
  }

  /** Substring search, trying each start position in turn. */
  function Contains(hay: string, needle: string): (r: bool)
    ensures r <==> Occurs(hay, needle)
    decreases |hay|
  {
    if needle <= hay then
      assert BlockAt(hay, needle, 0);
      true
    else if hay == [] then
      false
    else
      var r := Contains(hay[1..], needle);
      assert r ==> Occurs(hay, needle) by {
        if r {
          var i: nat :| BlockAt(hay[1..], needle, i);
          assert hay[i + 1..i + 1 + |needle|] == hay[1..][i..i + |needle|];
          assert BlockAt(hay, needle, i + 1);
        }
      }
      assert Occurs(hay, needle) ==> r by {
        if Occurs(hay, needle) {
          var i: nat :| BlockAt(hay, needle, i);
          if i > 0 {
            assert hay[1..][i - 1..i - 1 + |needle|] == hay[i..i + |needle|];
            assert BlockAt(hay[1..], needle, i - 1);
          }
        }
      }
      r
  }

  /** The `__icontains` lookup: `needle` occurs in `field`, ignoring case. */
  predicate IContains(field: string, needle: string) {
    Contains(Lower(field), Lower(needle))
  }

  /** Folding twice is folding once. */
  lemma LowerIdempotent(s: string)
    ensures Lower(Lower(s)) == Lower(s)
  {
  }

  /** The match does not depend on the case of either side. */
  lemma IContainsIgnoresCase(field: string, needle: string)
    ensures IContains(field, needle) == IContains(Lower(field), Lower(needle))
  {
    LowerIdempotent(field);
    LowerIdempotent(needle);
  }

  /** The characters below 128 that Python's `str.isspace` accepts: tab to
      carriage return, the four separators 28 to 31, and the space. */
  predicate IsSpace(c: char) {
    c == ' ' || 9 <= c as int <= 13 || 28 <= c as int <= 31
  }

  /** The first position at or after `i` holding no whitespace, or `|s|`. */
  function SkipSpace(s: string, i: nat): (j: nat)
    requires i <= |s|
    ensures i <= j <= |s|
    ensures forall k :: i <= k < j ==> IsSpace(s[k])
    ensures j < |s| ==> !IsSpace(s[j])
    decreases |s| - i
  {
    if i == |s| || !IsSpace(s[i]) then i else SkipSpace(s, i + 1)
  }

  /** Walking back from `j` towards `lo`, the position just after the last
      character that is not whitespace, or `lo`. */
  function SkipSpaceBack(s: string, lo: nat, j: nat): (r: nat)
    requires lo <= j <= |s|
    ensures lo <= r <= j
    ensures forall k :: r <= k < j ==> IsSpace(s[k])
    ensures r > lo ==> !IsSpace(s[r - 1])
    decreases j
  {
    if j == lo || !IsSpace(s[j - 1]) then j else SkipSpaceBack(s, lo, j - 1)
  }

  /** `str.strip()`: `s` without its leading and trailing whitespace. */
  function Trim(s: string): (r: string)
    ensures r == [] <==> forall k :: 0 <= k < |s| ==> IsSpace(s[k])
    ensures r != [] ==> !IsSpace(r[0]) && !IsSpace(r[|r| - 1])
    ensures exists i, j :: 0 <= i <= j <= |s| && r == s[i..j]
                           && (forall k :: 0 <= k < i ==> IsSpace(s[k]))
                           && (forall k :: j <= k < |s| ==> IsSpace(s[k]))
  {
    var i := SkipSpace(s, 0);
    s[i..SkipSpaceBack(s, i, |s|)]
  }

  /** Trimming twice is trimming once. */
  lemma TrimIdempotent(s: string)
    ensures Trim(Trim(s)) == Trim(s)
  {
    var r := Trim(s);
    if r != [] {
      assert SkipSpace(r, 0) == 0;
      assert SkipSpaceBack(r, 0, |r|) == |r|;
    }
  }
}

=== FILE: ticket_save.dfy ===
/** `Ticket.save`: the organizer check on updates, the capacity check against
    the event's attendance rows, then the write. */
module TicketSave {
  import opened Results
  import opened Seqs
  import opened Users
  import opened Events
  import opened Tickets
  import opened Store

  /** Why a save is refused. The first two are lookups that raise
      `DoesNotExist`; `OwnerForeignKey` is the integrity error of inserting a
      ticket whose owner does not exist. */
  datatype SaveError =
    | OwnerDoesNotExist
    | EventDoesNotExist
    | NotOrganizer
    | NotEnoughTickets
    | OwnerForeignKey

  /** The store after the attempt, and the saved row or the error. */
  datatype SaveOutcome = SaveOutcome(db: Db, result: Result<Ticket, SaveError>)

  /** A primary key above every stored one. */
  function NextTicketPk(tickets: seq<Ticket>): (r: nat)
    ensures forall i :: 0 <= i < |tickets| && tickets[i].pk.Some? ==> tickets[i].pk.value < r
    decreases |tickets|
  {
    if tickets == [] then 1
    else
      var rest := NextTicketPk(tickets[1..]);
      var here := tickets[0].pk.GetOr(0) + 1;
      assert forall i :: 1 <= i < |tickets| ==> tickets[i] == tickets[1..][i - 1];
      if here > rest then here else rest
  }

  /** The row as written: a new ticket gets a fresh key and both creation
      stamps; an existing one is written as it is. */
  function Stamped(db: Db, t: Ticket, now: int): (s: Ticket)
    ensures s.pk.Some?
    ensures t.pk.Some? ==> s == t
    ensures t.pk.None? ==> !KeyTaken(db.tickets, PkOf, s.pk)
    ensures t.pk.None? ==> s == t.(pk := s.pk, purchaseDate := now, timestamp := now)
  {
    if t.pk.None? then
      t.(pk := Some(NextTicketPk(db.tickets)), purchaseDate := now, timestamp := now)
    else t
  }

  /** The stored rows other than the one `s` is written over. */
  function Others(tickets: seq<Ticket>, s: Ticket): (r: seq<Ticket>)
    ensures forall x :: x in r <==> x in tickets && x.pk != s.pk
  {
    Keep(tickets, (x: Ticket) => x.pk != s.pk)
  }

  /** The table once `s` is written: any row with its key is replaced. */
  function Upsert(tickets: seq<Ticket>, s: Ticket): (r: seq<Ticket>)
    ensures forall x :: x in r <==> x == s || (x in tickets && x.pk != s.pk)
  {
    Others(tickets, s) + [s]
  }

  /** The write that follows the checks: an update of an existing row or an
      insert. Either way the owner's foreign key must name a stored user. */
  function Persist(db: Db, t: Ticket, now: int): (out: SaveOutcome)
    ensures out.result.Failure? ==> out.db == db && out.result.error == OwnerForeignKey
    ensures out.result.Success? <==> UserExists(db, t.owner)
    ensures out.result.Success? ==>
              out.result.value == Stamped(db, t, now)
              && out.db == db.(tickets := Upsert(db.tickets, Stamped(db, t, now)))
  {
    var s := Stamped(db, t, now);
    if !UserExists(db, t.owner) then SaveOutcome(db, Failure(OwnerForeignKey))
    else SaveOutcome(db.(tickets := Upsert(db.tickets, s)), Success(s))
  }

  /** `Ticket.save` as the Django code writes it. Both checks on updates are
      guarded by the truthiness of the key, so a key of 0 skips them. */
  function SaveTicket(db: Db, t: Ticket, now: int): (out: SaveOutcome)
    ensures out.result.Failure? ==> out.db == db
    ensures out.result.Success? ==>
              && out.db.users == db.users
              && out.db.events == db.events
              && out.db.attendances == db.attendances
              && out.db.reviews == db.reviews
              && forall x :: x in out.db.tickets <==>
                   x == out.result.value || (x in db.tickets && x.pk != out.result.value.pk)
    ensures out.result.Success? && t.pk.Some? ==> out.result.value == t
    ensures out.result.Success? && t.pk.None? ==>
              && out.result.value == t.(pk := out.result.value.pk, purchaseDate := now, timestamp := now)
              && !KeyTaken(db.tickets, PkOf, out.result.value.pk)
    ensures out.result.Success? ==> UserExists(db, t.owner)
    ensures !PkTruthy(t) ==> out.result != Failure(NotOrganizer) && out.result != Failure(OwnerDoesNotExist)
  {
    if PkTruthy(t) && FindUser(db.users, t.owner).None? then
      SaveOutcome(db, Failure(OwnerDoesNotExist))
    else
      match FindEvent(db.events, t.event)
      case None => SaveOutcome(db, Failure(EventDoesNotExist))
      case Some(e) =>
        if PkTruthy(t) && t.owner != e.organizer then
          SaveOutcome(db, Failure(NotOrganizer))
        else if t.numTickets > e.capacity - ReservedSeats(db.attendances, e.id) then
          SaveOutcome(db, Failure(NotEnoughTickets))
        else
          Persist(db, t, now)
  }

  /** Seats still open by the check's arithmetic: capacity less the reserved
      seats, as an unbounded integer that may be negative. */
  function Available(db: Db, e: Event): int {
    e.capacity - ReservedSeats(db.attendances, e.id)
  }

  /** Updating a ticket (truthy key) whose owner is not the event's
      organizer always fails, whatever the seat counts: the organizer check
      comes first. */
  lemma UpdateByNonOrganizerFails(db: Db, t: Ticket, e: Event, now: int)
    requires Injective(db.events, IdOfEvent)
    requires e in db.events && e.id == t.event && UserExists(db, t.owner)
    requires PkTruthy(t) && t.owner != e.organizer
    ensures SaveTicket(db, t, now) == SaveOutcome(db, Failure(NotOrganizer))
  {
    FindEventUnique(db.events, t.event, e);
  }

  /** For an existing event and owner the save succeeds exactly when the
      key is not truthy (a new ticket, or key 0) or the owner is the
      organizer, and the seats fit what the
      attendance rows leave open; it fails for lack of seats exactly when the
      organizer check passes and the seats do not fit. */
  lemma SaveSucceedsIff(db: Db, t: Ticket, e: Event, now: int)
    requires Injective(db.events, IdOfEvent)
    requires e in db.events && e.id == t.event && UserExists(db, t.owner)
    ensures SaveTicket(db, t, now).result.Success? <==>
              (!PkTruthy(t) || t.owner == e.organizer) && t.numTickets <= Available(db, e)
    ensures SaveTicket(db, t, now).result == Failure(NotEnoughTickets) <==>
              (!PkTruthy(t) || t.owner == e.organizer) && t.numTickets > Available(db, e)
  {
    FindEventUnique(db.events, t.event, e);
  }

  /** A save naming no existing event fails and changes nothing. */
  lemma SaveWithoutEventFails(db: Db, t: Ticket, now: int)
    requires !EventExists(db, t.event)
    ensures SaveTicket(db, t, now).db == db
    ensures SaveTicket(db, t, now).result.Failure?
  {
  }

  /** Whether a ticket without a truthy key is accepted does not depend on
      who owns it, as long as the owner exists: such tickets never meet the
      organizer check. */
  lemma NewTicketOwnerIrrelevant(db: Db, t: Ticket, owner: nat, now: int)
    requires !PkTruthy(t)
    requires UserExists(db, t.owner) && UserExists(db, owner)
    ensures SaveTicket(db, t, now).result.Success? <==> SaveTicket(db, t.(owner := owner), now).result.Success?
  {
  }

  /** A default ticket on a default event without attendance rows is
      accepted: one seat out of 100. */
  lemma DefaultTicketAccepted(db: Db, e: Event, owner: nat, price: Price, now: int)
    requires Injective(db.events, IdOfEvent)
    requires e in db.events && e.capacity == DefaultCapacity
    requires forall i :: 0 <= i < |db.attendances| ==> db.attendances[i].event != e.id
    requires UserExists(db, owner)
    ensures SaveTicket(db, NewTicket(e.id, owner, price), now).result.Success?
    ensures SaveTicket(db, NewTicket(e.id, owner, price), now).result.value.status == Active
    ensures SaveTicket(db, NewTicket(e.id, owner, price), now).result.value.numTickets == 1
  {
    ReservedSeatsNone(db.attendances, e.id);
    SaveSucceedsIff(db, NewTicket(e.id, owner, price), e, now);
  }

  /** Writing a row whose key is set and whose event and owner exist keeps
      the tickets' part of the invariant: keys stay distinct. */
  lemma UpsertKeepsTicketsValid(db: Db, s: Ticket)
    requires TicketsValid(db)
    requires s.pk.Some? && EventExists(db, s.event) && UserExists(db, s.owner)
    ensures TicketsValid(db.(tickets := Upsert(db.tickets, s)))
  {
    var db' := db.(tickets := Upsert(db.tickets, s));
    var p := (x: Ticket) => x.pk != s.pk;
    var kept := Keep(db.tickets, p);
    assert db'.tickets == kept + [s];
    KeepInjective(db.tickets, p, PkOf);
    forall y | y in kept ensures PkOf(y) != PkOf(s) {
    }
    InjectiveAppend(kept, s, PkOf);
    forall i | 0 <= i < |db'.tickets|
      ensures db'.tickets[i].pk.Some?
      ensures EventExists(db', db'.tickets[i].event) && UserExists(db', db'.tickets[i].owner)
    {
      if i < |kept| {
        assert db'.tickets[i] in db.tickets;
      }
    }
  }

  /** A successful save keeps the store's invariant. */
  lemma SavePreservesValid(db: Db, t: Ticket, now: int)
    requires Valid(db)
    requires SaveTicket(db, t, now).result.Success?
    ensures Valid(SaveTicket(db, t, now).db)
  {
    var s := SaveTicket(db, t, now).result.value;
    assert EventExists(db, t.event) by {
      assert FindEvent(db.events, t.event).Some?;
    }
    UpsertKeepsTicketsValid(db, s);
  }

  /** Saves applied one after another, as separate requests would be. Only
      the tickets table changes. */
  function SaveAll(db: Db, ts: seq<Ticket>, now: int): (out: Db)
    ensures out.users == db.users && out.events == db.events
    ensures out.attendances == db.attendances && out.reviews == db.reviews
    decreases |ts|
  {
    if ts == [] then db else SaveAll(SaveTicket(db, ts[0], now).db, ts[1..], now)
  }

  /** Ticket saves never lower what the check will allow next: every new
      ticket for an event that fits its attendance-based availability is
      accepted, however many seats the earlier ones took, so all of them are
      stored. */
  lemma {:induction false} SavesNeverShrinkAvailability(db: Db, ts: seq<Ticket>, e: Event, now: int)
    requires Injective(db.events, IdOfEvent)
    requires e in db.events
    requires forall i :: 0 <= i < |ts| ==>
               ts[i].pk.None? && ts[i].event == e.id && UserExists(db, ts[i].owner)
               && ts[i].numTickets <= Available(db, e)
    ensures Available(SaveAll(db, ts, now), e) == Available(db, e)
    ensures |SaveAll(db, ts, now).tickets| == |db.tickets| + |ts|
    decreases |ts|
  {
    if ts != [] {
      var t := ts[0];
      SaveSucceedsIff(db, t, e, now);
      var out := SaveTicket(db, t, now);
      var s := out.result.value;
      var p := (x: Ticket) => x.pk != s.pk;
      KeepAll(db.tickets, p);
      assert out.db.tickets == db.tickets + [s];
      forall i | 0 <= i < |ts[1..]|
        ensures UserExists(out.db, ts[1..][i].owner)
      {
        assert ts[1..][i] == ts[i + 1];
      }
      SavesNeverShrinkAvailability(out.db, ts[1..], e, now);
    }
  }

  // The scenario of the oversold event: one buyer, an event of 10 seats
  // without attendance rows, and new tickets for 7, 4 and 3 seats.
  const Buyer: User := User(1, "buyer", "Ann", "Lee", "", "", "", None, "@ann")
  const Gig: Event := Event(1, 1, "Gig", "", 0, "Kyiv", "music", 10, 0)
  const GigDb: Db := Db([Buyer], [Gig], [], [], [])
  const SevenSeats: Ticket := NewTicket(1, 1, Price(500)).(numTickets := 7)
  const FourSeats: Ticket := NewTicket(1, 1, Price(500)).(numTickets := 4)
  const ThreeSeats: Ticket := NewTicket(1, 1, Price(500)).(numTickets := 3)

  lemma GigDbValid()
    ensures Valid(GigDb) && UserExists(GigDb, 1) && Gig in GigDb.events
  {
    assert IdOfUser(GigDb.users[0]) == 1;
  }

  /** With capacity 10 and no attendance rows, a request for 7 seats and then
      one for 4 are both accepted and both stored: 11 seats sold against a
      capacity of 10. */
  lemma OversubscriptionAsWritten()
    ensures SaveTicket(GigDb, SevenSeats, 0).result.Success?
    ensures var first := SaveTicket(GigDb, SevenSeats, 0);
            var second := SaveTicket(first.db, FourSeats, 0);
            && second.result.Success?
            && first.result.value in second.db.tickets
            && second.result.value in second.db.tickets
            && first.result.value.numTickets + second.result.value.numTickets > Gig.capacity
  {
    GigDbValid();
    SaveSucceedsIff(GigDb, SevenSeats, Gig, 0);
    var first := SaveTicket(GigDb, SevenSeats, 0);
    SavePreservesValid(GigDb, SevenSeats, 0);
    assert UserExists(first.db, 1);
    SaveSucceedsIff(first.db, FourSeats, Gig, 0);
    var second := SaveTicket(first.db, FourSeats, 0);
    assert first.result.value in first.db.tickets;
  }

  /** The seats held by the stored tickets of an event. */
  function TicketSeats(tickets: seq<Ticket>, eventId: nat): nat
    decreases |tickets|
  {
    if tickets == [] then 0
    else (if tickets[0].event == eventId then tickets[0].numTickets else 0) + TicketSeats(tickets[1..], eventId)
  }

  lemma {:induction false} TicketSeatsAppend(tickets: seq<Ticket>, s: Ticket, eventId: nat)
    ensures TicketSeats(tickets + [s], eventId)
            == TicketSeats(tickets, eventId) + (if s.event == eventId then s.numTickets else 0)
    decreases |tickets|
  {
    if tickets == [] {
      assert [s][1..] == [];
    } else {
      assert (tickets + [s])[1..] == tickets[1..] + [s];
      TicketSeatsAppend(tickets[1..], s, eventId);
    }
  }

  /** Dropping rows never adds seats. */
  lemma {:induction false} TicketSeatsKeep(tickets: seq<Ticket>, p: Ticket -> bool, eventId: nat)
    ensures TicketSeats(Keep(tickets, p), eventId) <= TicketSeats(tickets, eventId)
    decreases |tickets|
  {
    if tickets != [] {
      TicketSeatsKeep(tickets[1..], p, eventId);
      if p(tickets[0]) {
        assert ([tickets[0]] + Keep(tickets[1..], p))[1..] == Keep(tickets[1..], p);
      }
    }
  }

  /** Every event's attendance rows and stored tickets together stay within
      its capacity. */
  ghost predicate WithinCapacity(db: Db) {
    forall e :: e in db.events ==>
      ReservedSeats(db.attendances, e.id) + TicketSeats(db.tickets, e.id) <= e.capacity
  }

  /** Seats still open once the event's other stored tickets are counted as
      well as its attendance rows. The row `t` is written over is left out, so
      that an update is not counted twice. */
  function CountedAvailable(db: Db, t: Ticket, e: Event, now: int): int {
    Available(db, e) - TicketSeats(Others(db.tickets, Stamped(db, t, now)), e.id)
  }

  /** The save with sold tickets counted: the same checks in the same order,
      with the seats compared against `CountedAvailable`. */
  function SaveTicketCounted(db: Db, t: Ticket, now: int): (out: SaveOutcome)
    ensures out.result.Failure? ==> out.db == db
    ensures out.result.Success? ==>
              && out.db.users == db.users
              && out.db.events == db.events
              && out.db.attendances == db.attendances
              && out.db.reviews == db.reviews
              && forall x :: x in out.db.tickets <==>
                   x == out.result.value || (x in db.tickets && x.pk != out.result.value.pk)
    ensures out.result.Success? ==> out.result.value == Stamped(db, t, now)
    ensures out.result.Success? ==> UserExists(db, t.owner)
    ensures !PkTruthy(t) ==> out.result != Failure(NotOrganizer) && out.result != Failure(OwnerDoesNotExist)
  {
    if PkTruthy(t) && FindUser(db.users, t.owner).None? then
      SaveOutcome(db, Failure(OwnerDoesNotExist))
    else
      match FindEvent(db.events, t.event)
      case None => SaveOutcome(db, Failure(EventDoesNotExist))
      case Some(e) =>
        if PkTruthy(t) && t.owner != e.organizer then
          SaveOutcome(db, Failure(NotOrganizer))
        else if t.numTickets > CountedAvailable(db, t, e, now) then
          SaveOutcome(db, Failure(NotEnoughTickets))
        else
          Persist(db, t, now)
  }

  /** The corrected save keeps every event within its capacity, so no sequence
      of saves can oversell an event. */
  lemma SaveCountedPreservesCapacity(db: Db, t: Ticket, now: int)
    requires Injective(db.events, IdOfEvent) && WithinCapacity(db)
    requires SaveTicketCounted(db, t, now).result.Success?
    ensures WithinCapacity(SaveTicketCounted(db, t, now).db)
  {
    var out := SaveTicketCounted(db, t, now);
    var f := FindEvent(db.events, t.event).value;
    var s := Stamped(db, t, now);
    var p := (x: Ticket) => x.pk != s.pk;
    var others := Others(db.tickets, s);
    assert others == Keep(db.tickets, p);
    assert out.db.tickets == others + [s];
    assert out.db.events == db.events && out.db.attendances == db.attendances;
    forall e | e in out.db.events
      ensures ReservedSeats(out.db.attendances, e.id) + TicketSeats(out.db.tickets, e.id) <= e.capacity
    {
      TicketSeatsAppend(others, s, e.id);
      if e.id == t.event {
        FindEventUnique(db.events, t.event, e);
      } else {
        TicketSeatsKeep(db.tickets, p, e.id);
      }
    }
  }

  /** For an existing event and owner the corrected save succeeds exactly
      when the organizer check passes and the seats fit what the attendance
      rows and the other sold tickets leave open; it fails for lack of seats
      exactly when the organizer check passes and they do not fit. */
  lemma SaveCountedSucceedsIff(db: Db, t: Ticket, e: Event, now: int)
    requires Injective(db.events, IdOfEvent)
    requires e in db.events && e.id == t.event && UserExists(db, t.owner)
    ensures SaveTicketCounted(db, t, now).result.Success? <==>
              (!PkTruthy(t) || t.owner == e.organizer) && t.numTickets <= CountedAvailable(db, t, e, now)
    ensures SaveTicketCounted(db, t, now).result == Failure(NotEnoughTickets) <==>
              (!PkTruthy(t) || t.owner == e.organizer) && t.numTickets > CountedAvailable(db, t, e, now)
  {
    FindEventUnique(db.events, t.event, e);
  }

  /** The scenario's store once the corrected save has stored the 7 seats. */
  const GigDbAfterSeven: Db := GigDb.(tickets := [Stamped(GigDb, SevenSeats, 0)])

  /** On the scenario the corrected save stores the 7-seat ticket as the only
      one. */
  lemma CountedFirstSave()
    ensures SaveTicketCounted(GigDb, SevenSeats, 0)
            == SaveOutcome(GigDbAfterSeven, Success(Stamped(GigDb, SevenSeats, 0)))
  {
    GigDbValid();
    var sa := Stamped(GigDb, SevenSeats, 0);
    assert Upsert(GigDb.tickets, sa) == [sa];
  }

  /** After the 7 seats, the corrected check leaves 3 seats open to a new
      ticket. */
  lemma CountedSeatsLeftAfterSeven(t: Ticket)
    requires t.pk.None?
    ensures CountedAvailable(GigDbAfterSeven, t, Gig, 0) == 3
  {
    var sa := Stamped(GigDb, SevenSeats, 0);
    var st := Stamped(GigDbAfterSeven, t, 0);
    assert st.pk != sa.pk;
    assert Others(GigDbAfterSeven.tickets, st) == [sa];
    assert TicketSeats([sa], 1) == 7;
  }

  lemma CountedSecondSaveRefused()
    ensures SaveTicketCounted(GigDbAfterSeven, FourSeats, 0).result == Failure(NotEnoughTickets)
  {
    GigDbValid();
    assert UserExists(GigDbAfterSeven, 1) by {
      assert IdOfUser(GigDbAfterSeven.users[0]) == 1;
    }
    CountedSeatsLeftAfterSeven(FourSeats);
    SaveCountedSucceedsIff(GigDbAfterSeven, FourSeats, Gig, 0);
  }

  lemma CountedThirdSaveFills()
    ensures var third := SaveTicketCounted(GigDbAfterSeven, ThreeSeats, 0);
            third.result.Success? && TicketSeats(third.db.tickets, Gig.id) == Gig.capacity
  {
    GigDbValid();
    assert UserExists(GigDbAfterSeven, 1) by {
      assert IdOfUser(GigDbAfterSeven.users[0]) == 1;
    }
    CountedSeatsLeftAfterSeven(ThreeSeats);
    SaveCountedSucceedsIff(GigDbAfterSeven, ThreeSeats, Gig, 0);
    var sa := Stamped(GigDb, SevenSeats, 0);
    var sc := Stamped(GigDbAfterSeven, ThreeSeats, 0);
    var third := SaveTicketCounted(GigDbAfterSeven, ThreeSeats, 0);
    assert Others(GigDbAfterSeven.tickets, sc) == [sa];
    assert third.db.tickets == [sa, sc];
    assert TicketSeats([sa, sc], 1) == 10 by {
      assert [sc][1..] == [];
      assert TicketSeats([sc], 1) == 3;
      assert [sa, sc][1..] == [sc];
    }
  }

  /** On the oversold scenario the corrected save refuses the second request
      (4 seats asked, 3 left) and accepts a request for the 3 seats left,
      which fills the event exactly. */
  lemma CountedSaveRefusesOversubscription()
    ensures SaveTicketCounted(GigDb, SevenSeats, 0).result.Success?
    ensures SaveTicketCounted(SaveTicketCounted(GigDb, SevenSeats, 0).db, FourSeats, 0).result
            == Failure(NotEnoughTickets)
    ensures var third := SaveTicketCounted(SaveTicketCounted(GigDb, SevenSeats, 0).db, ThreeSeats, 0);
            third.result.Success? && TicketSeats(third.db.tickets, Gig.id) == Gig.capacity
  {
    CountedFirstSave();
    CountedSecondSaveRefused();
    CountedThirdSaveFills();
  }
}

=== FILE: tickets.dfy ===
/** The ticket record: its status choices, its defaults and its string form. */
module Tickets {
  import opened Results

  /** The three `STATUS_CHOICES`. */
  datatype Status = Active | Finished | Cancelled

  const DefaultStatus: Status := Active
  const StatusMaxLength: nat := 20
  const DefaultNumTickets: nat := 1

  /** The value stored in the `status` column. */
  function StatusCode(s: Status): string {
    match s
    case Active => "active"
    case Finished => "finished"
    case Cancelled => "cancelled"
  }

  /** The human-readable label shown for a status. */
  function StatusLabel(s: Status): string {
    match s
    case Active => "Активний"
    case Finished => "Фінішед"
    case Cancelled => "Скасований"
  }

  /** Distinct statuses are shown with distinct labels. */
  lemma StatusLabelInjective(a: Status, b: Status)
    requires StatusLabel(a) == StatusLabel(b)
    ensures a == b
  {
  }

  /** Reads a stored status code back; anything but the three codes is not a
      choice. */
  function ParseStatus(code: string): (r: Option<Status>)
    ensures r.Some? <==> code in {"active", "finished", "cancelled"}
  {
    if code == "active" then Some(Active)
    else if code == "finished" then Some(Finished)
    else if code == "cancelled" then Some(Cancelled)
    else None
  }

  /** Stored codes read back as the status they encode, only the three codes
      parse, and every code fits the column. */
  lemma StatusCodeRoundTrip(s: Status, code: string)
    ensures ParseStatus(StatusCode(s)) == Some(s)
    ensures ParseStatus(code) == Some(s) ==> code == StatusCode(s)
    ensures |StatusCode(s)| <= StatusMaxLength
  {
  }

  /** The `price` decimal, held as an opaque value: nothing here computes with it. */
  datatype Price = Price(cents: int)

  /** `pk` is `None` until the row is first saved. Dates are day numbers;
      `numTickets` is a `PositiveIntegerField`. */
  datatype Ticket = Ticket(
    pk: Option<nat>,
    event: nat,
    owner: nat,
    price: Price,
    purchaseDate: int,
    numTickets: nat,
    timestamp: int,
    status: Status)

  /** A ticket built with only its event, owner and price: one seat, active,
      not yet saved. The dates are stamped when it is first saved. */
  function NewTicket(event: nat, owner: nat, price: Price): (r: Ticket)
    ensures r.pk.None? && r.numTickets == 1 && r.status == Active
    ensures r.event == event && r.owner == owner && r.price == price
  {
    Ticket(None, event, owner, price, 0, DefaultNumTickets, 0, DefaultStatus)
  }

  /** `if self.pk:` in `save`: Python truthiness, so a key of 0 counts as
      unset even though the row is then written as an update. */
  predicate PkTruthy(t: Ticket) {
    t.pk.Some? && t.pk.value != 0
  }

  const TicketPrefix: string := "Ticket for "

  /** `__str__` of a ticket whose event has title `title`. */
  function TicketLabel(title: string): (r: string)
    ensures |r| == |TicketPrefix| + |title|
    ensures r[..|TicketPrefix|] == "Ticket for "
    ensures r[|TicketPrefix|..] == title
  {
    TicketPrefix + title
  }

  /** Dropping the prefix recovers the title, so distinct titles print
      differently. */
  lemma TicketLabelInjective(a: string, b: string)
    requires TicketLabel(a) == TicketLabel(b)
    ensures a == b
  {
  }
}

=== FILE: users.dfy ===
/** The custom user model: field bounds, the `telegram_url` validator and the
    string form `first_name last_name`. */
module Users {
  import opened Results

  const UsernameMaxLength: nat := 20
  const NameMaxLength: nat := 30
  const AddressMaxLength: nat := 30
  const TelegramMaxLength: nat := 32
  /** Largest value of a `PositiveBigIntegerField`. */
  const PhoneMax: nat := 9223372036854775807

  datatype User = User(
    id: nat,
    username: string,
    firstName: string,
    lastName: string,
    country: string,
    city: string,
    street: string,
    phone: Option<nat>,
    telegramUrl: string)

  datatype UserField = Username | FirstName | LastName | Country | City | Street | Phone | TelegramUrl

  /** A character of the class `[\w\d_]`, over ASCII. */
  predicate IsWordChar(c: char) {
    ('a' <= c <= 'z') || ('A' <= c <= 'Z') || ('0' <= c <= '9') || c == '_'
  }

  /** The language of `^@[\w\d_]*$` read as a whole-string match: an '@'
      followed only by word characters. */
  ghost predicate TelegramPattern(s: string) {
    |s| >= 1 && s[0] == '@' && forall k :: 1 <= k < |s| ==> IsWordChar(s[k])
  }

  /** Where the greedy `[\w\d_]*` starting at `i` stops. */
  function WordRunEnd(s: string, i: nat): (j: nat)
    requires i <= |s|
    ensures i <= j <= |s|
    ensures forall k :: i <= k < j ==> IsWordChar(s[k])
    ensures j == |s| || !IsWordChar(s[j])
    decreases |s| - i
  {
    if i == |s| || !IsWordChar(s[i]) then i else WordRunEnd(s, i + 1)
  }

  /** `re.search('^@[\w\d_]*$', s)` as Python evaluates it: `$` matches at the
      end of the string or just before a newline that ends it. */
  function TelegramRegexAsWritten(s: string): (ok: bool)
    ensures ok <==> TelegramPattern(s)
                    || (|s| >= 2 && s[|s| - 1] == '\n' && TelegramPattern(s[..|s| - 1]))
  {
    if |s| == 0 || s[0] != '@' then false
    else
      var j := WordRunEnd(s, 1);
      assert TelegramPattern(s) ==> j == |s|;
      assert |s| >= 2 && s[|s| - 1] == '\n' && TelegramPattern(s[..|s| - 1]) ==> j == |s| - 1 by {
        if |s| >= 2 && s[|s| - 1] == '\n' && TelegramPattern(s[..|s| - 1]) {
          forall k | 1 <= k < |s| - 1 ensures IsWordChar(s[k]) {
            assert s[..|s| - 1][k] == s[k];
          }
        }
      }
      assert j == |s| - 1 && s[j] == '\n' ==> TelegramPattern(s[..|s| - 1]) by {
        if j == |s| - 1 && s[j] == '\n' {
          var t := s[..|s| - 1];
          forall k | 1 <= k < |t| ensures IsWordChar(t[k]) {
            assert t[k] == s[k];
          }
        }
      }
      j == |s| || (j == |s| - 1 && s[j] == '\n')
  }

  /** The validator as intended: the whole string is '@' then word characters. */
  function TelegramFullMatch(s: string): (ok: bool)
    ensures ok <==> TelegramPattern(s)
  {
    |s| >= 1 && s[0] == '@' && WordRunEnd(s, 1) == |s|
  }

  /** The `telegram_url` field accepts `s`: the length bound and the pattern. */
  predicate ValidTelegramUrl(s: string) {
    |s| <= TelegramMaxLength && TelegramFullMatch(s)
  }

  /** What the field accepts as written: the length bound and the regex search. */
  predicate TelegramUrlAcceptedAsWritten(s: string) {
    |s| <= TelegramMaxLength && TelegramRegexAsWritten(s)
  }

  /** A valid handle starts with '@', fits in 32 characters and continues with
      word characters only; "@" alone is valid. */
  lemma ValidTelegramUrlShape(s: string)
    ensures ValidTelegramUrl(s) <==>
              |s| <= 32 && |s| >= 1 && s[0] == '@' && forall k :: 1 <= k < |s| ==> IsWordChar(s[k])
    ensures ValidTelegramUrl("@")
  {
  }

  /** The regex as written also lets a handle through with a trailing newline,
      which the intended pattern rejects. */
  lemma TrailingNewlineAcceptedAsWritten()
    ensures TelegramUrlAcceptedAsWritten("@bob\n")
    ensures !ValidTelegramUrl("@bob\n")
  {
    assert !IsWordChar("@bob\n"[4]);
    assert "@bob\n"[..4] == "@bob";
  }

  /** Everything the intended validator accepts, the as-written one accepts. */
  lemma ValidTelegramAcceptedAsWritten(s: string)
    requires ValidTelegramUrl(s)
    ensures TelegramUrlAcceptedAsWritten(s)
  {
  }

  /** The field constraints of one user, stated field by field. */
  ghost predicate FieldsValid(u: User) {
    && |u.username| <= 20
    && |u.firstName| <= 30 && |u.lastName| <= 30
    && |u.country| <= 30 && |u.city| <= 30 && |u.street| <= 30
    && (u.phone.Some? ==> u.phone.value <= PhoneMax)
    && TelegramPattern(u.telegramUrl) && |u.telegramUrl| <= 32
  }

  /** The fields of `u` that fail their validators. */
  function FieldErrors(u: User): (errs: set<UserField>)
    ensures errs == {} <==> FieldsValid(u)
    ensures TelegramUrl in errs <==> !ValidTelegramUrl(u.telegramUrl)
  {
    (if |u.username| > UsernameMaxLength then {Username} else {})
    + (if |u.firstName| > NameMaxLength then {FirstName} else {})
    + (if |u.lastName| > NameMaxLength then {LastName} else {})
    + (if |u.country| > AddressMaxLength then {Country} else {})
    + (if |u.city| > AddressMaxLength then {City} else {})
    + (if |u.street| > AddressMaxLength then {Street} else {})
    + (if u.phone.Some? && u.phone.value > PhoneMax then {Phone} else {})
    + (if !ValidTelegramUrl(u.telegramUrl) then {TelegramUrl} else {})
  }

  /** `FieldErrors` applies the intended pattern, so it reports a
      `telegram_url` error that the regex search as written would not raise
      exactly for a well-formed handle of at most 32 characters followed by a
      final newline. */
  lemma FieldErrorsTelegramGap(u: User)
    ensures TelegramUrl in FieldErrors(u) && TelegramUrlAcceptedAsWritten(u.telegramUrl) <==>
              var s := u.telegramUrl;
              |s| <= TelegramMaxLength && |s| >= 2 && s[|s| - 1] == '\n' && TelegramPattern(s[..|s| - 1])
  {
    var s := u.telegramUrl;
    if |s| >= 2 && s[|s| - 1] == '\n' {
      assert !IsWordChar(s[|s| - 1]);
    }
  }

  /** `__str__`: first name, a space, last name. */
  function UserStr(u: User): (r: string)
    ensures |r| == |u.firstName| + 1 + |u.lastName|
    ensures r[..|u.firstName|] == u.firstName && r[|u.firstName|] == ' '
    ensures r[|u.firstName| + 1..] == u.lastName
  {
    u.firstName + " " + u.lastName
  }

  /** When first names contain no space the string form determines the name
      pair, so it is as unique as the `(first_name, last_name)` constraint. */
  lemma UserStrDeterminesNames(u: User, v: User)
    requires ' ' !in u.firstName && ' ' !in v.firstName
    requires UserStr(u) == UserStr(v)
    ensures u.firstName == v.firstName && u.lastName == v.lastName
  {
  }

  /** In general two users with different name pairs can print identically. */
  lemma UserStrNotUnique()
    ensures var u := User(1, "u1", "Ann Lee", "Ray", "", "", "", None, "@a");
            var v := User(2, "u2", "Ann", "Lee Ray", "", "", "", None, "@b");
            (u.firstName, u.lastName) != (v.firstName, v.lastName) && UserStr(u) == UserStr(v)
  {
  }
}
